=== FILE: README.md ===
# Airport Security: a Dafny model of the proof pipeline and its gates

The Airport Security system compares two fingerprint images and proves in
zero knowledge whether they match. An employee uploads a reference print and
a person's print. The server preprocesses both, runs a Python matcher that
writes the circuit input, computes a witness and a Groth16 proof, and
archives the proof. A police officer verifies uploaded proofs and reviews the
archive. Administrators manage staff.

This project models the decision and bookkeeping logic of that system as
pure Dafny functions over immutable datatypes:

- `Common`: shared results, HTTP errors, roles and string helpers.
- `Users`: the user schema, registration, login and profile update.
- `Access`: token extraction, the authentication outcome, and the four role gates.
- `Archive`: the proof-submission schema and the submit, list, get, download and status routes.
- `Stages`: the upload and pipeline stage routes, `matchFound`, and the legacy all-in-one route.
- `CircuitInput`: the integer parts of the Python matcher that writes `circom_input.json`.
- `Verification`: the verify-zkp route, its key search and its reading of the verifier's output.
- `UploadPage`, `VerifyPage`, `SubmissionsPage`, `Dashboard`: the client pages' state transitions, filters, sorts and counts.
- `Guards`: the client route guards and the navigation bar.
- `Forms`: the three client form schemas, the add-staff redirect and the avatar rule.
- `Email`: the credentials mail's role name and notes.

External tools are parameters or data:

- Shell commands become `Exec` results. The set of files on disk is a `set<string>`.
- The password hash, the token signer and verifier, `localeCompare`, `toLocaleString`, and Yup's email and URL checks are function parameters.
- The Mongo collections are a `map` of users and a `seq` of submissions indexed by id.
- A client page's server is a datatype of functions from request to answer.

## Model

| member | source | states |
|---|---|---|
| Common.ParseRole | server/models/User.js:17-21 | a role string is accepted exactly when it is admin, employee or police, and it parses back to the same name |
| Common.RoleNameRoundTrip | server/models/User.js:17-21 | every stored role's name parses back to that role |
| Common.StepIndicatorMonotone | client/src/pages/PoliceVerificationPage.js:163-177 | a completed step is active; advancing the current step never deactivates or uncompletes a step; the current step is the last active one |
| Common.Lower | client/src/pages/PoliceSubmissionsPage.js:59-62 | lower-casing keeps the length, leaves no upper-case letter, changes no other character, and maps each upper-case letter to its lower-case partner |
| Common.LowerIdempotent | client/src/pages/PoliceSubmissionsPage.js:59-62 | lower-casing an already lower-cased text changes nothing, so the page may fold the query and the fields independently |
| Users.ParseGender | server/models/User.js:34-38 | a gender string is accepted exactly when it is male, female, other or empty, and it names the parsed value |
| Users.FindByEmail | server/models/User.js:8-12 | with unique emails, a user is found exactly when the email is taken, and the found user has that email |
| Users.Register | server/routes/auth.js:9-60 | a taken email gives 400 "User already exists"; success exactly when the email is free and the name, email and hash are non-empty; the new user is an employee whose password is the hash, with the schema defaults: no picture, contact or address, gender unset, no age, and the registration time as its date; every other user is unchanged; the session carries the signed id and no password; unique emails are preserved |
| Users.Login | server/routes/auth.js:62-105 | success exactly when a stored user has the email and the (string) password matches its hash; every such failure is 400 "Invalid credentials"; the token signs the found user's id |
| Users.LoginFailuresUniform | server/routes/auth.js:67-76 | an unknown email and a wrong password for a known email give the identical reply |
| Users.RegisterThenLogin | server/routes/auth.js:9-105 | after a successful registration, logging in with the same email and password succeeds |
| Users.GetProfile | server/routes/users.js:7-20 | a profile is returned exactly when the id is stored, and it is that stored user whole except for the password; a well-formed id that is not stored gives 404 "User not found" |
| Users.RegisterThenGetProfile | server/routes/users.js:7-20 | right after registration the new user's profile is found under the session's id, as an employee with the given name and email and no picture; every other profile is unchanged |
| Users.UpdateProfile | server/routes/users.js:22-51 | a missing user gives 404 and an unknown gender fails, both leaving the store unchanged; on success only this user changes; email, password, role and date are untouched; the name changes only to a non-empty value; the other fields change whenever their key is present, even to empty |
| Users.UpdateProfilePreservesStore | server/routes/users.js:22-51 | a profile update keeps the store's required fields and its unique emails |
| Access.UpToSpace | server/middleware/auth.js:11 | the result is the longest space-free prefix of the input |
| Access.TokenFrom | server/middleware/auth.js:6-14 | a header starting with "Bearer " yields the text up to the next space; any other header yields the x-auth-token value |
| Access.BearerRoundTrip | server/middleware/auth.js:10-14 | a space-free token sent as "Bearer " plus the token is read back unchanged, whatever x-auth-token holds |
| Access.BearerTakesPrecedence | server/middleware/auth.js:10-14 | a Bearer header wins over x-auth-token |
| Access.Authenticate | server/middleware/auth.js:4-39 | an empty token gives 401 "No token, authorization denied"; every failure is 401; success exactly when the token verifies and names a stored user, who is then attached without the password |
| Access.LoginThenAuthenticate | server/middleware/auth.js:4-39 | a token issued at login, sent as a Bearer header or as x-auth-token, authenticates as the user who logged in, given that the verifier accepts what the signer produced and tokens hold no spaces |
| Access.AdminGate | server/middleware/auth.js:41-51 | passes exactly an administrator; any rejection is 403 |
| Access.PoliceGate | server/middleware/auth.js:53-63 | passes exactly a police user; any rejection is 403 |
| Access.RestrictPolice | server/routes/biometric.js:13-19 | passes exactly when the user is not police; any rejection is 403 |
| Access.OnlyPolice | server/routes/biometric.js:21-27 | passes exactly when no user is attached or the user is police; any rejection is 403 |
| Access.BiometricGatesComplementary | server/routes/biometric.js:13-27 | for every role exactly one of restrictPolice and onlyPolice passes, and onlyPolice agrees with the police gate |
| Archive.ParseStatus | server/models/ProofSubmission.js:25-29 | a status string is accepted exactly when it is pending, verified or rejected, and it names the parsed value |
| Archive.Submit | server/routes/biometric.js:630-679 | a missing or absent path gives 400 and an unknown caller 404, both with the store unchanged; with usable paths and a known caller it succeeds exactly when the record passes the schema, else 500 "An error occurred during proof submission"; success appends exactly one record: the caller's id and stored name, the current time, both files' contents, status pending, empty notes; every earlier record is kept |
| Archive.Summaries | server/routes/biometric.js:685-687 | one entry per record in id order: entry i carries id i and that record's owner, name, time, status and notes, and no field for the proof and public blobs |
| Archive.InsertByTime | server/routes/biometric.js:685-687 | inserting into a newest-first list keeps it newest-first and adds exactly the one summary |
| Archive.SortNewestFirst | server/routes/biometric.js:685-687 | the result is ordered by timestamp, newest first, and is a permutation of the input |
| Archive.List | server/routes/biometric.js:683-693 | the listing is newest-first and a permutation of all records' summaries |
| Archive.ListIsComplete | server/routes/biometric.js:683-693 | every stored record appears in the listing, and every listed entry is the summary of the record with its id |
| Archive.Get | server/routes/biometric.js:697-709 | a record is returned exactly when the well-formed id is stored; otherwise 404 "Proof submission not found" |
| Archive.Download | server/routes/biometric.js:713-767 | the requested blob is returned exactly when the well-formed id is stored; otherwise 404 |
| Archive.UpdateStatus | server/routes/biometric.js:771-803 | a status outside the enum gives 400 before any lookup; a well-formed id that is not stored gives 404; it succeeds exactly when the status is in the enum and the id is stored; failures change nothing; success sets the status, replaces the notes only when new notes are non-empty, and leaves every other record and field unchanged |
| Archive.AnyStatusToAny | server/routes/biometric.js:785-790 | there is no transition table: any record can be moved to any status |
| Archive.ArchiveImmutable | server/routes/biometric.js:785-790 | across any sequence of submissions and reviews no record disappears, and no record's owner, timestamp or blobs change |
| Archive.SubmitThenDownload | server/routes/biometric.js:713-767 | after a successful submission and any later operations, both downloads return the files' contents at submission time |
| Stages.BaseName | server/routes/biometric.js:106 | the result is the slash-free suffix after the last slash |
| Stages.UploadFingerprint | server/routes/biometric.js:86-140 | no file gives 400 "No file uploaded" and runs nothing; a non-TIFF upload is refused with 500; success exactly when the preprocessing run completes, returning the image path and its features path; the output file is not checked |
| Stages.UploadsFeedCompare | server/routes/biometric.js:296-313 | two accepted images whose preprocessing completes upload successfully, and their features paths are the comparison route's inputs: it runs the comparison on exactly those files when they were written, and refuses with 400 without running anything when one was not |
| Stages.GenerateCircomInput | server/routes/biometric.js:296-362 | a missing or absent features file gives 400 and runs nothing; otherwise exactly the comparison is run; success exactly when it completes and the circuit input file exists afterwards; a comparison that throws is answered by the outer catch with 500 "An error occurred during circom input generation" |
| Stages.CircomInputReply | server/routes/biometric.js:296-350 | the checks and command shared by both readings of the route: 400 and nothing run for a missing or absent features file, one comparison otherwise, success exactly when it completes and writes the circuit input, 500 for any failure after running |
| Stages.GenerateCircomInputIntended | server/routes/biometric.js:351-357 | the route as its inner catch means it: the same success condition, and a comparison that throws answers 500 "Failed to generate circom input" |
| Stages.CircomThrowReachesOuterCatch | server/routes/biometric.js:317-361 | the route as written and the intended route differ only when the comparison throws on usable inputs, and then only in the message; they always run the same commands |
| Stages.GenerateWitnessStep | server/routes/biometric.js:366-420 | a missing or absent input gives 400 and runs nothing; otherwise exactly the witness command is run; success exactly when it completes and the witness file exists afterwards; a failure after running is 500 |
| Stages.GenerateProofStep | server/routes/biometric.js:424-489 | a missing or absent witness gives 400 and runs nothing; otherwise exactly the prove command is run; success exactly when it completes and both output files exist; matchFound is read from public input 0 |
| Stages.MatchFlagsDiverge | server/routes/biometric.js:611 | the step route reads matchFound from public input 0 and the legacy route from input 1, so the two disagree on inputs such as ["1", "0"] |
| Stages.RefusedStagesIgnoreTools | server/routes/biometric.js:302-313 | a refused stage's reply does not depend on what the tools would have done |
| Stages.StagesChain | server/routes/biometric.js:296-489 | each successful stage's output is the input the next stage accepts |
| Stages.VerifyAllInOne | server/routes/biometric.js:493-626 | missing inputs give 400 and run nothing; the commands run are a prefix of compare, witness, export-witness, prove; a failure after running is 500; success exactly when every command other than the export completes and every expected file exists, and the match flag reads public input 1 |
| Stages.VerifyAllInOneIsTheChain | server/routes/biometric.js:493-626 | the legacy route succeeds exactly when the three step routes chained on the same runs succeed, runs their commands with the witness export in between, and returns the public inputs the proof step reads |
| CircuitInput.GoodMatches | server/temp/app2.py:57-60 | the kept pairs are exactly the knn pairs that pass the 0.7 ratio test, each kept as often as it occurs, so their number is the script's num_good; well-formed pairs stay well-formed |
| CircuitInput.SumBestBound | server/temp/app2.py:67 | the best distances of well-formed pairs sum to at most 256 per pair |
| CircuitInput.RoundHalfEven | server/temp/app2.py:68 | the result is within half a unit of n/d, and an exact half rounds to the even neighbour |
| CircuitInput.RoundWithin | server/temp/app2.py:68-69 | rounding a quotient that lies between two integers gives a value between them |
| CircuitInput.NormalizedQuality | server/temp/app2.py:67-68 | the quality score is between 0 and 100, and 0 when there are no good matches |
| CircuitInput.QualityWithin | server/temp/app2.py:68 | a rounded percentage of a ratio between 0 and 1 lies between 0 and 100 |
| CircuitInput.CountScore | server/temp/app2.py:69 | the count score is between 0 and 100, is 100 from 30 good matches, and is otherwise the rounded percentage of 30 |
| CircuitInput.FinalScore | server/temp/app2.py:70-71 | the weighted final score lies between the two scores it combines, so within 0 to 100 |
| CircuitInput.Match | server/temp/app2.py:36-86 | fewer than 2 descriptors on either side, or a failed knn match, gives no match with score 0 and no pairs; a match holds exactly when there are at least 10 good matches; the score is 0 without good matches, and with good matches it is the 40/60 weighting of the rounded distance quality and the rounded count score, floor-divided by 100, within 0 to 100 |
| CircuitInput.Distances | server/temp/app2.py:97-116 | there are exactly 200 distances: with fewer than 100 pairs, the pairs flattened in order followed by 256 up to 200 entries; with 100 pairs or more, the first 200 flattened entries |
| CircuitInput.FlattenAt | server/temp/app2.py:98-100 | entry k of the flattened pairs is distance k % 2 of pair k / 2, so flattening keeps the pairs' order |
| CircuitInput.PadDistances | server/temp/app2.py:97-116 | the flatten, pad and cut loop yields exactly 200 entries, each the flattened distance or 256 |
| CircuitInput.PadDistancesMatchesReference | server/temp/app2.py:97-116 | the loop agrees with the reference definition of the distances |
| CircuitInput.GenerateInput | server/temp/app2.py:88-117 | the circuit input carries 200 distances, a quality that is the rounded distance quality of the match's own good pairs, scores within 0 to 100, and the constants 40, 60, 70, 7000 and 10 |
| CircuitInput.NoGoodMatchesScoresZero | server/temp/app2.py:90-95 | without good matches the average distance is taken as 256, so the circuit's quality and count scores are 0, the final score is 0 and there is no match |
| CircuitInput.CircuitScoresRecomputeFinalScore | server/temp/app2.py:66-71 | with good matches, the weights and scores handed to the circuit recombine to the final score the matcher computed |
| CircuitInput.TooFewDescriptorsIsAllPadding | server/temp/app2.py:46-48 | with too few descriptors both scores are 0 and every distance is padding |
| CircuitInput.MatchCountScore | server/temp/app2.py:46-79 | enough descriptors and at least 10 good matches make a match, whose count score is then at least 33 |
| CircuitInput.DistancesKeepFirstHundred | server/temp/app2.py:116 | only the first hundred pairs reach the circuit |
| CircuitInput.RunScript | server/temp/app2.py:137-164 | the script exits 0 exactly when it has two arguments and both feature files load, and then writes the generated input; otherwise it exits 1 |
| Verification.FirstExisting | server/routes/biometric.js:186-193 | nothing is found exactly when no location exists on disk; a found path is one of the locations |
| Verification.FindKey | server/routes/biometric.js:178-224 | an existing key location is used without running anything; the export runs exactly when no location exists and the zkey does; no key exactly when neither yields one |
| Verification.ReadVerifier | server/routes/biometric.js:227-270 | tampered is always the negation of verified; verified exactly when the verifier completed with empty stderr and stdout containing "OK" |
| Verification.VerifyZkp | server/routes/biometric.js:143-293 | a file the JSON filter refuses gives 500 and runs nothing; otherwise a missing file gives 400 "Both proof.json and public.json files are required" and runs nothing; success exactly when both files are present and accepted and a key is found, and then the outcome is the verifier's and the verify command runs last |
| Verification.FaultReply | server/routes/biometric.js:284-292 | an unexpected fault gives 500 with verified and tampered both false |
| Verification.VerdictIsExclusive | server/routes/biometric.js:227-283 | a successful reply is exactly one of verified and tampered |
| Verification.StderrMeansTampered | server/routes/biometric.js:233-250 | any stderr output makes the proof tampered and not verified, whatever stdout says |
| Verification.FirstLocationWins | server/routes/biometric.js:178-193 | a key at the first location is used and nothing is run |
| Verification.NoKeyNoVerification | server/routes/biometric.js:216-224 | with no key and no proving key on disk, accepted uploads get 500 "Verification key not found" and nothing is run |
| UploadPage.SelectFile | client/src/pages/FileUploadPage.js:58-88 | a TIFF is kept with its name and clears the error; anything else clears that file and its name and sets an error; the other file and the run state are unchanged |
| UploadPage.ProcessButton | client/src/pages/FileUploadPage.js:466 | a refused selection disables the verify button; a TIFF for the missing slot enables it while idle; a finished run leaves it enabled for the same two files |
| UploadPage.UploadOne | client/src/pages/FileUploadPage.js:90-119 | an upload marks processing, extends the log, and yields the server's features path or nothing |
| UploadPage.FullRun | client/src/pages/FileUploadPage.js:130-171 | a full run sends exactly five requests in order: the reference upload, the person upload, the circuit input built from both stored paths, the witness built from the circuit input's path, and the proof built from the witness's path |
| UploadPage.StageFailed | client/src/pages/FileUploadPage.js:195-207 | a failed stage sets an error, stops processing and keeps the step, result and files |
| UploadPage.ProofArrived | client/src/pages/FileUploadPage.js:173-176 | a generated proof is stored as the result, marks the proof generated and moves to step 3 |
| UploadPage.LaterStages | client/src/pages/FileUploadPage.js:146-207 | the proof is stored exactly when the comparison, witness and proof requests all succeed; otherwise step 2 with an error |
| UploadPage.Started | client/src/pages/FileUploadPage.js:123-131 | starting a run clears the result, the proof flag and the messages, and resets the log and the step to 1 |
| UploadPage.Uploads | client/src/pages/FileUploadPage.js:132-144 | the person's print is uploaded only after the reference upload succeeds |
| UploadPage.Process | client/src/pages/FileUploadPage.js:122-209 | the requests sent are a prefix of the full run in stage order; a failed upload stops after at most two requests at step 1; a proof is stored exactly when every request succeeds; processing ends in every case |
| UploadPage.RunThreadsOutputs | client/src/pages/FileUploadPage.js:146-168 | each stage is sent the previous stage's output |
| UploadPage.Submit | client/src/pages/FileUploadPage.js:212-243 | without a generated proof nothing is sent and an error is set; otherwise exactly one submission is sent with the proof's paths; success moves to step 4 and clears the proof flag |
| UploadPage.Archived | client/src/pages/FileUploadPage.js:231-233 | an archived proof moves to step 4, clears the proof flag and stops processing |
| UploadPage.ArchivingFailed | client/src/pages/FileUploadPage.js:235-241 | a refused submission sets an error and keeps the proof for another attempt |
| UploadPage.SubmitOnlyOnce | client/src/pages/FileUploadPage.js:213-233 | a second submission right after a successful one sends nothing |
| UploadPage.ProcessThenSubmit | client/src/pages/FileUploadPage.js:122-243 | after a successful run, submitting sends exactly one request, carrying the stored proof's paths |
| VerifyPage.SelectFile | client/src/pages/PoliceVerificationPage.js:54-84 | a JSON file (by type or name) is kept with its name and clears the error; anything else clears that file and sets an error; the other file is unchanged |
| VerifyPage.ClientAndServerJsonTestsDiffer | client/src/pages/PoliceVerificationPage.js:57 | the page and the server both accept a JSON type or a ".json" name, but a file named exactly ".json" with no type passes the page's test and fails the server's extension test |
| VerifyPage.Answered | client/src/pages/PoliceVerificationPage.js:121-131 | an answer becomes the result at step 3; a verified proof sets the success message and any other the invalid message |
| VerifyPage.Failed | client/src/pages/PoliceVerificationPage.js:132-145 | a failed request sets the failure message and keeps the result and the step |
| VerifyPage.VerifyFiles | client/src/pages/PoliceVerificationPage.js:86-146 | no request is sent exactly when a file is missing, and then an error is set; an answer is shown at step 3; a failure leaves no result at step 2 |
| VerifyPage.Reset | client/src/pages/PoliceVerificationPage.js:148-158 | reset returns every field but the busy flag to the initial state |
| VerifyPage.ResetIdempotent | client/src/pages/PoliceVerificationPage.js:148-158 | resetting twice equals resetting once, and after a reset no request can be sent |
| VerifyPage.Title | client/src/pages/PoliceVerificationPage.js:232 | the title is "Proof Verified" exactly when verified, "Proof Tampered" exactly when tampered but not verified, and "Proof Invalid" otherwise |
| VerifyPage.ShowsTamperAlert | client/src/pages/PoliceVerificationPage.js:231-246 | the security alert follows the tampered flag: never under "Proof Invalid", exactly with "Proof Tampered", and under "Proof Verified" when both flags are set |
| VerifyPage.NoInvalidHeadingFromServer | client/src/pages/PoliceVerificationPage.js:232-246 | a successful server reply never shows "Proof Invalid", and shows the tamper alert exactly under the "Proof Tampered" heading |
| VerifyPage.FaultShowsNoVerdict | server/routes/biometric.js:284-292 | a server fault reaches the page as a failure: no result, and the fault's message |
| SubmissionsPage.Fetched | client/src/pages/PoliceSubmissionsPage.js:95-101 | the page receives one row per archived record, row i showing the i-th entry of the newest-first listing |
| SubmissionsPage.ByStatus | client/src/pages/PoliceSubmissionsPage.js:53-55 | "all" keeps every row; any other status keeps exactly the rows with that status, with their multiplicities |
| SubmissionsPage.BySearch | client/src/pages/PoliceSubmissionsPage.js:58-64 | an empty query keeps every row; otherwise exactly the rows whose lower-cased user name or formatted time contains the lower-cased query |
| SubmissionsPage.InOrderTransitive | client/src/pages/PoliceSubmissionsPage.js:67-77 | the comparator's order is transitive |
| SubmissionsPage.InOrderTotal | client/src/pages/PoliceSubmissionsPage.js:67-77 | any two rows are ordered one way or the other |
| SubmissionsPage.PrependSorted | client/src/pages/PoliceSubmissionsPage.js:67-77 | a row ordered before a sorted list's head keeps the list sorted |
| SubmissionsPage.Insert | client/src/pages/PoliceSubmissionsPage.js:67-77 | inserting into a sorted list keeps it sorted and adds exactly the one row |
| SubmissionsPage.Sort | client/src/pages/PoliceSubmissionsPage.js:67-77 | the result is ordered by the key in the chosen direction and is a permutation of the input |
| SubmissionsPage.SortKeepsSorted | client/src/pages/PoliceSubmissionsPage.js:67-77 | sorting an already sorted list changes nothing |
| SubmissionsPage.Displayed | client/src/pages/PoliceSubmissionsPage.js:49-80 | the shown list is sorted and holds exactly the rows that pass both filters, each as often as fetched |
| SubmissionsPage.NothingHidden | client/src/pages/PoliceSubmissionsPage.js:49-80 | with status "all" and no query every fetched row is shown |
| SubmissionsPage.ShownRowsPass | client/src/pages/PoliceSubmissionsPage.js:49-80 | every shown row was fetched and passes both filters |
| SubmissionsPage.RequestSort | client/src/pages/PoliceSubmissionsPage.js:237-243 | the clicked key becomes the key; the direction is descending exactly when that key was ascending |
| SubmissionsPage.RequestSortAlternates | client/src/pages/PoliceSubmissionsPage.js:237-243 | repeated clicks on one header alternate the direction, with period two |
| SubmissionsPage.Chevron | client/src/pages/PoliceSubmissionsPage.js:397-418 | a chevron shows exactly on the sorted column, up exactly when ascending |
| SubmissionsPage.BadgeClass | client/src/pages/PoliceSubmissionsPage.js:258-268 | verified and rejected get their own classes; any other status gets the pending class |
| SubmissionsPage.BadgesNameStatuses | client/src/pages/PoliceSubmissionsPage.js:258-268 | row i fetched from the archive wears the badge named after the status of the i-th listed record, and the three stored statuses wear three different badges |
| SubmissionsPage.CountByStatus | client/src/pages/PoliceSubmissionsPage.js:271-276 | the "all" count is the number of rows; no count exceeds it |
| SubmissionsPage.CountIsTabSize | client/src/pages/PoliceSubmissionsPage.js:271-276 | a tab's count is the number of rows that tab shows with an empty query |
| SubmissionsPage.CountsPartition | client/src/pages/PoliceSubmissionsPage.js:271-276 | when every status is known, the pending, verified and rejected counts sum to the "all" count |
| SubmissionsPage.FetchedCountsPartition | client/src/pages/PoliceSubmissionsPage.js:271-276 | for rows fetched from the archive the three counts always sum to the total |
| SubmissionsPage.FetchedArrivesSorted | client/src/pages/PoliceSubmissionsPage.js:30 | the server's newest-first listing is already in the page's initial order, so the first sort changes nothing |
| Guards.RoleRoute | client/src/components/AdminRoute.js:6-28 | loading shows the loading view; no user redirects to /login remembering the location; a wrong role redirects to /profile; the children render exactly for a loaded user with the role |
| Guards.PrivateRoute | client/src/components/PrivateRoute.js:5-13 | loading shows the loading view; the children render exactly for a loaded user of any role; otherwise /login |
| Guards.GuardsNest | client/src/components/PoliceRoute.js:6-28 | passing a role guard implies passing the private guard; no user passes both role guards; no guard admits a missing user |
| Guards.Items | client/src/components/Navbar.js:23-75 | logged out shows only Login; Dashboard and Add Employee exactly for admins; Upload exactly for non-police; Verify and Submissions exactly for police; Profile last and Logout for every user |
| Guards.AtMostOneActive | client/src/components/Navbar.js:18-75 | the bar's link targets, logo included, are distinct, so at most one link is highlighted |
| Guards.LinksMatchGuards | client/src/components/Navbar.js:25-58 | a user sees the dashboard link exactly when the admin guard admits them, the verify link exactly when the police guard does, and the upload link exactly when it does not |
| Dashboard.PageAgreesWithAdminGuard | client/src/pages/Dashboard.js:15-22 | the page admits exactly the users the admin guard admits |
| Dashboard.Compare | client/src/pages/Dashboard.js:24-43 | an entry without a value comes first ascending and last descending; a valued entry against an empty one the reverse; two values compare by age difference or by localeCompare, negated descending |
| Dashboard.EmptyKeysCompareBothWays | client/src/pages/Dashboard.js:29-30 | two entries without a value each claim to come first, so the comparator is not antisymmetric |
| Dashboard.ZeroAgeSortsAsMissing | client/src/pages/Dashboard.js:29-30 | an age of 0 sorts like a missing age |
| Dashboard.HandleSort | client/src/pages/Dashboard.js:62-68 | the clicked column becomes the key; descending exactly when that column was ascending |
| Dashboard.SortIndicator | client/src/pages/Dashboard.js:70-73 | no indicator on other columns; an up arrow exactly when ascending and a down arrow exactly when descending |
| Dashboard.HandleSortFlipsIndicator | client/src/pages/Dashboard.js:62-73 | clicking a header always shows its arrow, a new column starts with the up arrow, and clicking again flips it |
| Dashboard.SearchFields | client/src/pages/Dashboard.js:47-54 | exactly six fields are searched, in order: name, email, contact, gender, age written in decimal (empty when absent) and address |
| Dashboard.SearchIgnoresRole | client/src/pages/Dashboard.js:46-60 | changing an employee's role never changes whether the search finds them |
| Dashboard.Visible | client/src/pages/Dashboard.js:45-60 | exactly the employees with a non-empty field containing the term, ignoring case, are kept, as often as they occur |
| Dashboard.VisibleKeepsOrder | client/src/pages/Dashboard.js:46 | the search keeps the sorted order: any split of the list is searched piece by piece |
| Dashboard.EmptySearchKeepsNamed | client/src/pages/Dashboard.js:56-58 | an empty search keeps every employee with a name and drops one with no field at all |
| Dashboard.EmailFinds | client/src/pages/Dashboard.js:56-58 | an employee whose email contains the term is kept |
| Forms.RegisterValid | client/src/pages/Register.js:9-32 | a form is accepted exactly when it has a name of at least 2 characters, a well-formed email, contact, address and gender, a positive whole age, a password of at least 6 characters and a matching confirmation |
| Forms.RegisterRejects | client/src/pages/Register.js:67-76 | the blank form, and ages 2.5 and 0, are refused |
| Forms.AddEmployeeValid | client/src/pages/AddEmployee.js:8-30 | a form is accepted exactly when it has a name of at least 2 characters, a well-formed email, a role, a blank or positive whole age, a password of at least 6 characters and a matching confirmation |
| Forms.AddEmployeeOptionalFields | client/src/pages/AddEmployee.js:15-21 | contact, address, gender and age may all be left blank; the initial role is "employee" |
| Forms.RegisterStricterThanAddEmployee | client/src/pages/AddEmployee.js:8-30 | whatever the registration form accepts, the staff form accepts as an employee, but not conversely |
| Forms.AddEmployeeRedirect | client/src/pages/AddEmployee.js:38-44 | everyone but an administrator is redirected to "/" |
| Forms.AddEmployeeAgreesWithAdminGuard | client/src/pages/AddEmployee.js:41-43 | the page keeps exactly the users the admin guard admits |
| Forms.AddedMessage | client/src/pages/AddEmployee.js:59 | the confirmation begins "Admin " exactly for an administrator and "Employee " otherwise |
| Forms.ProfileValid | client/src/pages/Profile.js:8-16 | a profile is accepted exactly when its name has at least 2 characters, its bio at most 300, and its picture is blank or a URL; without a picture the first two conditions decide |
| Forms.ProfileBlankOptional | client/src/pages/Profile.js:12-15 | clearing the picture or the bio keeps a valid profile valid |
| Forms.AvatarOf | client/src/pages/Profile.js:46-60 | the picture is drawn exactly when one is set; otherwise the upper-cased first character of the name, or "?" without a name |
| Forms.PlaceholderIsOneLetter | client/src/pages/Profile.js:59 | the placeholder is "?" only for a missing name or one starting with "?"; for an ASCII first character it is one character, and a lower-case letter becomes its capital |
| Email.EffectiveRole | server/utils/email.js:14 | a missing or empty role is read as "employee"; any other role is kept |
| Email.RoleDisplay | server/utils/email.js:17-23 | admin is "Administrator", police is "Police Officer", anything else is "Employee" |
| Email.Credentials | server/utils/email.js:12-55 | the mail goes to the employee's email with their name, password and role name; the administrator note exactly for admins and the police note exactly for police |
| Email.NotesMatchRole | server/utils/email.js:37-40 | at most one note, each matching the role line; a mail without a role reads like an employee's |
| Email.StoredRolesNamedApart | server/utils/email.js:17-23 | distinct stored roles get distinct names in the mail |

## Left out

- Process execution, the file system and multer storage: each command is an `Exec` result and the disk is a set of paths.
- The hash function, the token signer and the token verifier are parameters. They are not modelled as bcrypt or JWT.
- `toLocaleString` and `localeCompare` are parameters. The browser's collation and date formatting are not modelled.
- Yup's email and URL format checks are parameters.
- Yup's casting is not modelled in detail. A numeric field is blank, not a number, or a real number; the form library turns a blank field into an absent one.
- Concurrency is not modelled. The stages write fixed file names, so concurrent sessions would collide.
- Shell injection through request-supplied paths is not modelled. Paths are trusted data.
- The middleware wiring in server/routes/auth.js:5 and server/routes/users.js:3 is not modelled; only the handler bodies are. Those files bind the module object rather than the `auth` function, so the `/me` route and the profile update are registered behind a non-function.
- The `/me` route (server/routes/auth.js:107-113) is not modelled. It only reads the user without its password, as `Users.GetProfile` does.
- client/src/App.js and server/server.js (route and server wiring) are not part of this model. App.js registers only the login, register and profile pages, so the other navbar targets reach its catch-all route.
- client/src/pages/Login.js, client/src/context/AuthContext.js and client/src/components/VantaBackground.js are not part of this model. They hold session plumbing, required-field checks and graphics.
- server/temp/preprocess.py is not part of this model. It is image processing; its run is an `Exec` result.
- React rendering, axios and localStorage are not modelled. The automatic download of proof files on the upload page is not modelled either: that branch reads a field the proof route never sends.
- The submissions page's fetch, view, download and status-update handlers are not modelled as network code. The status update is `Archive.UpdateStatus`.
- `sendPasswordChangeConfirmation` and the mail transport are not modelled. The credentials mail is the record handed to the transport.
- The dashboard's delete and grid/table toggle are not modelled.
- Dashboard.Visible: takes the already sorted list as input. The engine's sort is not computed, because the comparator is not antisymmetric for entries without a value (`Dashboard.EmptyKeysCompareBothWays`), so the result depends on the engine's algorithm.
- SubmissionsPage.Sort: states sortedness and permutation only. The order among rows with equal keys is not stated; the model sorts stably.
- CircuitInput.NormalizedQuality: computes with exact rational half-even rounding. The script's floating-point `round` can differ on exact halves (for example five good matches whose best distances sum to 544). The Lowe ratio test is the integer form of the float test.
- Common.Lower: case folding covers ASCII letters only.
- Users.Register: the password is taken to be a string. A request without one, or with a non-string one, makes the hash call throw, and the route answers 500 "Server error" (server/routes/auth.js:28, 56-59).
- Users.Login: the password is taken to be a string. For a known email, a missing or non-string password makes the hash comparison throw, and the route answers 500 "Server error" (server/routes/auth.js:73, 101-104). An unknown email still gets 400, so such a request tells known emails apart.
- Users.GetProfile: ids are numbers, so a malformed id is not modelled. The lookup throws a cast error on one, and the route answers 500 "Server error" (server/routes/users.js:16-19).
- Forms.RegisterValid: lengths count Unicode characters, while the form library counts UTF-16 code units. A character beyond U+FFFF counts once here and twice there, so, for example, a one-emoji name is refused here and accepted there.
- Forms.AddEmployeeValid: lengths count Unicode characters, not UTF-16 code units, as for the registration form.
- Forms.ProfileValid: the name and bio lengths count Unicode characters, not UTF-16 code units, so a bio with characters beyond U+FFFF may be accepted here and refused there.
- SubmissionsPage.Sort: text keys compare by code point, while JavaScript's `<` compares UTF-16 code units. The two orders differ only when a character beyond U+FFFF meets one in U+E000..U+FFFF.
- Stages.VerifyAllInOne: the reply's `proof` object is not modelled; only whether it parses is (server/routes/biometric.js:609-614).
- Forms.AvatarOf: upper-casing covers ASCII letters only. JavaScript's `toUpperCase` also maps other letters, some to two characters ('ß' becomes "SS").
- Forms.PlaceholderIsOneLetter: the one-character claim is stated for an ASCII first character only, because of the upper-casing above.
- Archive.Get: ids are numbers, so a malformed id is not modelled. The route's lookup throws a cast error on one, which answers 500 (server/routes/biometric.js:706-708).
- Archive.Download: a malformed id is not modelled either; both download routes answer it with 500 (server/routes/biometric.js:735-737 and 764-766).
- Archive.UpdateStatus: a malformed id with a valid status is not modelled either; the route answers it with 500 (server/routes/biometric.js:800-802).
- Logging, and HTTP status plumbing beyond the codes stated in the table, are not modelled.

## Findings

| source | as written | input that shows it | evidently intended | confidence | as-written member | corrected member |
|---|---|---|---|---|---|---|
| server/routes/biometric.js:351-361 | the inner catch of the circuit-input route reads `app2Cmd`, a constant declared inside the `try` block, so building its reply throws and the outer catch answers instead | two features files that exist and a comparison command that exits non-zero: the reply is 500 "An error occurred during circom input generation" | 500 "Failed to generate circom input" with the command's error | high, not executed | Stages.GenerateCircomInput, with Stages.CircomThrowReachesOuterCatch | Stages.GenerateCircomInputIntended |

=== FILE: access.dfy ===
/**
  Access gating on the server: reading the session token from the request
  headers, resolving it to a stored user, and the role gates that run after
  authentication (`admin`, `police`, and the biometric routes'
  `restrictPolice` and `onlyPolice`). Token verification is a parameter.
 */
module Access {
  import opened Common
  import Users

  /** The longest prefix of `s` that holds no space. */
  function UpToSpace(s: string): (r: string)
    ensures |r| <= |s| && r == s[..|r|]
    ensures ' ' !in r
    ensures |r| < |s| ==> s[|r|] == ' '
  {
    if s == [] || s[0] == ' ' then [] else [s[0]] + UpToSpace(s[1..])
  }

  const BearerPrefix: string := "Bearer "

  /**
    The token of a request, "" when there is none. Header values are ""
    when the header is absent; both are falsy in the source. With a
    Bearer header the token is `split(' ')[1]`: the text between the first
    and the second space.
   */
  function TokenFrom(authorization: string, xAuthToken: string): (token: string)
    ensures StartsWith(authorization, BearerPrefix) ==>
      token == UpToSpace(authorization[|BearerPrefix|..])
    ensures !StartsWith(authorization, BearerPrefix) ==> token == xAuthToken
  {
    if authorization != "" && StartsWith(authorization, BearerPrefix) then
      UpToSpace(authorization[|BearerPrefix|..])
    else xAuthToken
  }

  /** A well-formed Bearer header yields exactly the token that was put in it. */
  lemma BearerRoundTrip(t: string, xAuthToken: string)
    requires ' ' !in t
    ensures TokenFrom(BearerPrefix + t, xAuthToken) == t
  {
    var h := BearerPrefix + t;
    assert StartsWith(h, BearerPrefix);
    assert h[|BearerPrefix|..] == t;
    UpToSpaceNoSpace(t);
  }

  lemma {:induction false} UpToSpaceNoSpace(s: string)
    requires ' ' !in s
    ensures UpToSpace(s) == s
  {
    if s != [] {
      assert ' ' !in s[1..];
      UpToSpaceNoSpace(s[1..]);
    }
  }

  /**
    The Bearer form wins over `x-auth-token` even when its token is empty:
    `Authorization: Bearer ` never falls back to the other header.
   */
  lemma BearerTakesPrecedence(rest: string, xAuthToken: string)
    ensures TokenFrom(BearerPrefix + rest, xAuthToken) == UpToSpace(rest)
  {
    var h := BearerPrefix + rest;
    assert StartsWith(h, BearerPrefix);
    assert h[|BearerPrefix|..] == rest;
  }

  /**
    The `auth` middleware. `verify` stands for signature and expiry checking
    and yields the user id of the payload. Success means the next handler
    runs with the stored user (without its password) attached.
   */
  function Authenticate(authorization: string, xAuthToken: string,
                        verify: string -> Option<Users.UserId>, users: Users.Users): (r: Result<Users.Profile>)
    ensures TokenFrom(authorization, xAuthToken) == "" ==>
      r == Failure(Unauthorized("No token, authorization denied"))
    ensures r.Failure? ==> r.error.Code() == 401
    ensures r.Success? <==>
      var token := TokenFrom(authorization, xAuthToken);
      token != "" && verify(token).Some? && verify(token).value in users
    ensures r.Success? ==>
      var id := verify(TokenFrom(authorization, xAuthToken)).value;
      r.value == Users.WithoutPassword(id, users[id])
  {
    var token := TokenFrom(authorization, xAuthToken);
    if token == "" then Failure(Unauthorized("No token, authorization denied"))
    else match verify(token)
      case None => Failure(Unauthorized("Token is not valid"))
      case Some(id) =>
        if id !in users then Failure(Unauthorized("User not found"))
        else Success(Users.WithoutPassword(id, users[id]))
  }

  /**
    A token issued at login authenticates as the user who logged in, sent
    either as `Authorization: Bearer <token>` or as `x-auth-token`, given
    that the verifier accepts what the signer produced and that tokens are
    non-empty and free of spaces (as JWTs are).
   */
  lemma LoginThenAuthenticate(users: Users.Users, email: string, password: string,
                              matches: (string, string) -> bool, sign: Users.UserId -> string,
                              verify: string -> Option<Users.UserId>, xAuthToken: string)
    requires Users.UniqueEmails(users)
    requires forall id :: id in users ==> verify(sign(id)) == Some(id) && sign(id) != "" && ' ' !in sign(id)
    requires Users.Login(users, email, password, matches, sign).Success?
    ensures var s := Users.Login(users, email, password, matches, sign).value;
      && Authenticate(BearerPrefix + s.token, xAuthToken, verify, users)
           == Success(Users.WithoutPassword(s.user.id, users[s.user.id]))
      && Authenticate("", s.token, verify, users) == Success(Users.WithoutPassword(s.user.id, users[s.user.id]))
      && Authenticate(BearerPrefix + s.token, xAuthToken, verify, users).value.email == email
  {
    var s := Users.Login(users, email, password, matches, sign).value;
    BearerRoundTrip(s.token, xAuthToken);
    assert !StartsWith("", BearerPrefix);
  }

  /** A middleware's decision: run the next handler, or answer with an error. */
  datatype Gate = Next | Reject(error: HttpError)

  /** The `admin` middleware; `user` is the role of the attached user, if any. */
  function AdminGate(user: Option<Role>): (g: Gate)
    ensures g.Next? <==> user == Some(Admin)
    ensures g.Reject? ==> g.error.Code() == 403
  {
    if user.None? || user.value != Admin then Reject(Forbidden("Access denied. Admin role required.")) else Next
  }

  /** The `police` middleware. */
  function PoliceGate(user: Option<Role>): (g: Gate)
    ensures g.Next? <==> user == Some(Police)
    ensures g.Reject? ==> g.error.Code() == 403
  {
    if user.None? || user.value != Police then Reject(Forbidden("Access denied. Police role required.")) else Next
  }

  /** `restrictPolice`: keeps police users away from the proof pipeline. */
  function RestrictPolice(user: Option<Role>): (g: Gate)
    ensures g.Next? <==> user != Some(Police)
    ensures g.Reject? ==> g.error.Code() == 403
  {
    if user.Some? && user.value == Police then
      Reject(Forbidden("Police users do not have access to biometric verification features"))
    else Next
  }

  /** `onlyPolice`: admits only police users to the archive and the verifier. */
  function OnlyPolice(user: Option<Role>): (g: Gate)
    ensures g.Next? <==> (user.None? || user.value == Police)
    ensures g.Reject? ==> g.error.Code() == 403
  {
    if user.Some? && user.value != Police then
      Reject(Forbidden("Only police users have access to ZKP verification features"))
    else Next
  }

  /**
    For an authenticated user the two biometric gates are complementary:
    exactly one of them lets the request through, and `onlyPolice` agrees
    with the `police` middleware.
   */
  lemma BiometricGatesComplementary(role: Role)
    ensures RestrictPolice(Some(role)).Next? <==> !OnlyPolice(Some(role)).Next?
    ensures OnlyPolice(Some(role)).Next? <==> PoliceGate(Some(role)).Next?
  {
  }
}

=== FILE: archive.dfy ===
/**
  The proof archive: the proof-submission schema and the handlers that
  create, list, read, download and review submissions. The collection is
  a sequence indexed by submission id: the archive never deletes, so a
  record's id is the position it was appended at.
 */
module Archive {
  import opened Common
  import Users

  /** The review status enum of the submission schema. */
  datatype Status = Pending | Verified | Rejected

  function StatusName(s: Status): string {
    match s
    case Pending => "pending"
    case Verified => "verified"
    case Rejected => "rejected"
  }

  /** The status handler's check of a requested value against the three-value enum. */
  function ParseStatus(s: string): (r: Option<Status>)
    ensures r.Some? <==> (s == "pending" || s == "verified" || s == "rejected")
    ensures r.Some? ==> StatusName(r.value) == s
  {
    if s == "pending" then Some(Pending)
    else if s == "verified" then Some(Verified)
    else if s == "rejected" then Some(Rejected)
    else None
  }

  type SubmissionId = nat

  /** One archived proof. `proofData` and `publicData` are the file contents at submission time. */
  datatype Submission = Submission(
    userId: Users.UserId,
    userName: string,
    timestamp: int,
    proofData: string,
    publicData: string,
    status: Status,
    verificationNotes: string)

  /** The schema's `required` validators (a required string must be non-empty). */
  predicate Valid(s: Submission) {
    s.userName != "" && s.proofData != "" && s.publicData != ""
  }

  type Store = seq<Submission>

  /** The fields a submission is created with and that no operation rewrites. */
  predicate SameOrigin(a: Submission, b: Submission) {
    && a.userId == b.userId
    && a.userName == b.userName
    && a.timestamp == b.timestamp
    && a.proofData == b.proofData
    && a.publicData == b.publicData
  }

  datatype Receipt = Receipt(submissionId: SubmissionId, timestamp: int)

  /** The request checks of POST /submit-proof that answer 400: paths given and present on disk. */
  predicate PathsUsable(files: map<string, string>, proofPath: string, publicPath: string) {
    proofPath != "" && publicPath != "" && proofPath in files && publicPath in files
  }

  /**
    POST /submit-proof by the authenticated user `caller`. `files` is the
    disk (path to contents) and `now` the clock at save time. Paths are
    "" when absent from the request.
   */
  function Submit(store: Store, users: Users.Users, files: map<string, string>,
                  caller: Users.UserId, proofPath: string, publicPath: string, now: int): (r: (Result<Receipt>, Store))
    ensures r.0.Failure? ==> r.1 == store
    ensures !PathsUsable(files, proofPath, publicPath) ==> r.0.Failure? && r.0.error.Code() == 400
    ensures PathsUsable(files, proofPath, publicPath) && caller !in users ==>
      r.0 == Failure(NotFound("User not found"))
    ensures r.0.Success? ==> PathsUsable(files, proofPath, publicPath) && caller in users
    ensures r.0.Success? ==>
      && |r.1| == |store| + 1
      && r.1[..|store|] == store
      && r.1[|store|] == Submission(caller, users[caller].name, now, files[proofPath], files[publicPath], Pending, "")
      && r.0.value == Receipt(|store|, now)
    ensures r.0.Success? ==> Valid(r.1[|store|])
    ensures PathsUsable(files, proofPath, publicPath) && caller in users ==>
      (r.0.Success? <==>
         Valid(Submission(caller, users[caller].name, now, files[proofPath], files[publicPath], Pending, "")))
    ensures r.0.Failure? && r.0.error.Code() == 500 ==>
      r.0.error == ServerError("An error occurred during proof submission")
  {
    if proofPath == "" || publicPath == "" then
      (Failure(BadRequest("Both proof and public file paths are required")), store)
    else if proofPath !in files then
      (Failure(BadRequest("Proof file not found: " + proofPath)), store)
    else if publicPath !in files then
      (Failure(BadRequest("Public file not found: " + publicPath)), store)
    else if caller !in users then
      (Failure(NotFound("User not found")), store)
    else
      var s := Submission(caller, users[caller].name, now, files[proofPath], files[publicPath], Pending, "");
      if !Valid(s) then
        // the schema's required validators reject the document on save
        (Failure(ServerError("An error occurred during proof submission")), store)
      else
        (Success(Receipt(|store|, now)), store + [s])
  }

  /** A submission as listed: everything but the two blobs. */
  datatype Summary = Summary(
    id: SubmissionId,
    userId: Users.UserId,
    userName: string,
    timestamp: int,
    status: Status,
    verificationNotes: string)

  function Summarize(id: SubmissionId, s: Submission): Summary {
    Summary(id, s.userId, s.userName, s.timestamp, s.status, s.verificationNotes)
  }

  /**
    Every record projected, in id order: the entry at position i carries
    id i and that record's owner, name, time, status and notes. A summary
    has no field for the two blobs, so the listing never carries them.
   */
  function Summaries(store: Store): (r: seq<Summary>)
    ensures |r| == |store|
    ensures forall i :: 0 <= i < |store| ==>
      && r[i].id == i && r[i].userId == store[i].userId && r[i].userName == store[i].userName
      && r[i].timestamp == store[i].timestamp && r[i].status == store[i].status
      && r[i].verificationNotes == store[i].verificationNotes
  {
    seq(|store|, i requires 0 <= i < |store| => Summarize(i, store[i]))
  }

  predicate NewestFirst(s: seq<Summary>) {
    forall i, j :: 0 <= i < j < |s| ==> s[i].timestamp >= s[j].timestamp
  }

  /** Inserts `x` into a newest-first list behind every strictly newer entry. */
  function InsertByTime(x: Summary, s: seq<Summary>): (r: seq<Summary>)
    requires NewestFirst(s)
    ensures NewestFirst(r)
    ensures multiset(r) == multiset(s) + multiset{x}
    ensures |r| == |s| + 1 && (r[0] == x || (s != [] && r[0] == s[0]))
  {
    if s == [] then [x]
    else if s[0].timestamp > x.timestamp then
      var rest := InsertByTime(x, s[1..]);
      PrependNewest(s[0], rest);
      assert s == [s[0]] + s[1..];
      [s[0]] + rest
    else
      [x] + s
  }

  lemma PrependNewest(a: Summary, t: seq<Summary>)
    requires NewestFirst(t)
    requires t != [] ==> a.timestamp >= t[0].timestamp
    ensures NewestFirst([a] + t)
  {
    var r := [a] + t;
    forall i, j | 0 <= i < j < |r|
      ensures r[i].timestamp >= r[j].timestamp
    {
      if i == 0 && j > 1 {
        assert r[j] == t[j - 1];
      }
    }
  }

  /** Insertion sort on the timestamp, newest first. */
  function SortNewestFirst(s: seq<Summary>): (r: seq<Summary>)
    ensures NewestFirst(r)
    ensures multiset(r) == multiset(s)
  {
    if s == [] then []
    else
      assert s == [s[0]] + s[1..];
      InsertByTime(s[0], SortNewestFirst(s[1..]))
  }

  /**
    GET /proof-submissions: every submission, newest first, with the proof
    and public-input blobs projected away.
   */
  function List(store: Store): (r: seq<Summary>)
    ensures NewestFirst(r)
    ensures multiset(r) == multiset(Summaries(store))
  {
    SortNewestFirst(Summaries(store))
  }

  /** The listing holds one entry per stored submission, and each entry describes its record. */
  lemma ListIsComplete(store: Store)
    ensures |List(store)| == |store|
    ensures forall id :: 0 <= id < |store| ==> Summarize(id, store[id]) in List(store)
    ensures forall e :: e in List(store) ==> e.id < |store| && e == Summarize(e.id, store[e.id])
  {
    var l := List(store);
    var all := Summaries(store);
    assert |multiset(l)| == |multiset(all)|;
    forall id | 0 <= id < |store|
      ensures Summarize(id, store[id]) in l
    {
      assert all[id] in multiset(all);
    }
    forall e | e in l
      ensures e.id < |store| && e == Summarize(e.id, store[e.id])
    {
      assert e in multiset(all);
      var k :| 0 <= k < |all| && all[k] == e;
    }
  }

  /** GET /proof-submissions/:id: the full record, blobs included. */
  function Get(store: Store, id: SubmissionId): (r: Result<Submission>)
    ensures r.Success? <==> id < |store|
    ensures r.Success? ==> r.value == store[id]
    ensures r.Failure? ==> r.error == NotFound("Proof submission not found")
  {
    if id < |store| then Success(store[id]) else Failure(NotFound("Proof submission not found"))
  }

  /** Which blob a download route sends. */
  datatype Blob = ProofBlob | PublicBlob

  /** GET /proof-submissions/:id/proof and /public: the stored blob, sent as a file. */
  function Download(store: Store, id: SubmissionId, which: Blob): (r: Result<string>)
    ensures r.Success? <==> id < |store|
    ensures r.Success? ==> r.value == (if which == ProofBlob then store[id].proofData else store[id].publicData)
    ensures r.Failure? ==> r.error.Code() == 404
  {
    if id >= |store| then Failure(NotFound("Proof submission not found"))
    else if which == ProofBlob then Success(store[id].proofData)
    else Success(store[id].publicData)
  }

  /** The body of a status update; a field is "" when absent (both are falsy). */
  datatype StatusUpdate = StatusUpdate(status: string, verificationNotes: string)

  datatype StatusReply = StatusReply(id: SubmissionId, status: Status, verificationNotes: string)

  /** The record after a review: the status always, the notes only when new ones are given. */
  function Reviewed(s: Submission, status: Status, notes: string): Submission {
    s.(status := status, verificationNotes := if notes != "" then notes else s.verificationNotes)
  }

  /** PUT /proof-submissions/:id/status. */
  function UpdateStatus(store: Store, id: SubmissionId, req: StatusUpdate): (r: (Result<StatusReply>, Store))
    ensures ParseStatus(req.status).None? ==>
      r.0 == Failure(BadRequest("Invalid status value"))
    ensures ParseStatus(req.status).Some? && id >= |store| ==>
      r.0 == Failure(NotFound("Proof submission not found"))
    ensures r.0.Failure? ==> r.1 == store
    ensures r.0.Success? <==> id < |store| && ParseStatus(req.status).Some?
    ensures r.0.Success? ==>
      && |r.1| == |store|
      && (forall k :: 0 <= k < |store| && k != id ==> r.1[k] == store[k])
      && SameOrigin(store[id], r.1[id])
      && r.1[id].status == ParseStatus(req.status).value
      && r.1[id].verificationNotes ==
           (if req.verificationNotes != "" then req.verificationNotes else store[id].verificationNotes)
      && r.0.value == StatusReply(id, r.1[id].status, r.1[id].verificationNotes)
  {
    var status := ParseStatus(req.status);
    if status.None? then (Failure(BadRequest("Invalid status value")), store)
    else if id >= |store| then (Failure(NotFound("Proof submission not found")), store)
    else
      var s := Reviewed(store[id], status.value, req.verificationNotes);
      (Success(StatusReply(id, s.status, s.verificationNotes)), store[id := s])
  }

  /** There is no transition table: an officer can move any status to any status. */
  lemma AnyStatusToAny(store: Store, id: SubmissionId, target: Status)
    requires id < |store|
    ensures var r := UpdateStatus(store, id, StatusUpdate(StatusName(target), ""));
      r.0.Success? && r.1[id].status == target
      && r.1[id].verificationNotes == store[id].verificationNotes
  {
  }

  /** An operation that can change the archive. */
  datatype Op =
    | SubmitOp(users: Users.Users, files: map<string, string>, caller: Users.UserId,
               proofPath: string, publicPath: string, now: int)
    | ReviewOp(id: SubmissionId, req: StatusUpdate)

  function Apply(store: Store, op: Op): Store {
    match op
    case SubmitOp(users, files, caller, proofPath, publicPath, now) =>
      Submit(store, users, files, caller, proofPath, publicPath, now).1
    case ReviewOp(id, req) => UpdateStatus(store, id, req).1
  }

  function Run(store: Store, ops: seq<Op>): Store
    decreases |ops|
  {
    if ops == [] then store else Run(Apply(store, ops[0]), ops[1..])
  }

  /**
    Archive immutability: whatever operations follow, no record disappears
    and no record's owner, timestamp, proof blob or public-input blob
    changes; only status and notes are ever rewritten.
   */
  lemma {:induction false} ArchiveImmutable(store: Store, ops: seq<Op>)
    ensures |Run(store, ops)| >= |store|
    ensures forall i :: 0 <= i < |store| ==> SameOrigin(store[i], Run(store, ops)[i])
    decreases |ops|
  {
    if ops != [] {
      var next := Apply(store, ops[0]);
      assert |next| >= |store|;
      assert forall i :: 0 <= i < |store| ==> SameOrigin(store[i], next[i]);
      ArchiveImmutable(next, ops[1..]);
    }
  }

  /**
    Download returns what was submitted: the proof blob of a new submission
    is the proof file's contents at submission time, whatever reviews follow.
   */
  lemma SubmitThenDownload(store: Store, users: Users.Users, files: map<string, string>,
                           caller: Users.UserId, proofPath: string, publicPath: string, now: int,
                           later: seq<Op>)
    requires Submit(store, users, files, caller, proofPath, publicPath, now).0.Success?
    ensures
      var after := Run(Submit(store, users, files, caller, proofPath, publicPath, now).1, later);
      && Download(after, |store|, ProofBlob) == Success(files[proofPath])
      && Download(after, |store|, PublicBlob) == Success(files[publicPath])
  {
    var created := Submit(store, users, files, caller, proofPath, publicPath, now).1;
    ArchiveImmutable(created, later);
  }
}

=== FILE: circuit_input.dfy ===
/**
  The fingerprint matcher run between preprocessing and witness
  generation: k-nearest-neighbour matching of two descriptor sets with
  Lowe's ratio test, the fixed-point scores, and the circuit input it
  writes (the scores, the circuit's constants and exactly 200 distances).
  The descriptor matcher itself is a parameter: the model is given, for
  every query descriptor, the Hamming distances of its two nearest
  candidates. Distances are integers (Hamming distances of 256-bit
  descriptors); the score arithmetic is exact rational arithmetic.
 */
module CircuitInput {
  import opened Common

  const MinMatches: nat := 10
  const KnnK: nat := 2
  const DistanceWeight: nat := 40
  const CountWeight: nat := 60
  /** The constants written into the circuit input as they are. */
  const Threshold: nat := 70
  const LowesRatioFixed: nat := 7000
  const MaxPairs: nat := 100
  const Slots: nat := 2 * MaxPairs
  /** The distance of a padding pair: the largest Hamming distance two 256-bit descriptors can have. */
  const PadDistance: nat := 256

  /** One query descriptor's two nearest candidates: the distances of the best and the second best. */
  datatype KnnPair = KnnPair(best: nat, second: nat)

  /** What the matcher guarantees of its answer: distances at most 256, nearest first. */
  predicate WellFormed(knn: seq<KnnPair>) {
    forall i :: 0 <= i < |knn| ==> knn[i].best <= knn[i].second <= PadDistance
  }

  /** Lowe's ratio test at 0.70, on integer distances. */
  predicate PassesRatioTest(p: KnnPair) {
    100 * p.best < 70 * p.second
  }

  /** The best matches of the pairs that pass the ratio test, in order. */
  function GoodMatches(knn: seq<KnnPair>): (good: seq<KnnPair>)
    ensures |good| <= |knn|
    ensures forall p :: p in good ==> p in knn && PassesRatioTest(p)
    ensures forall p :: p in knn && PassesRatioTest(p) ==> p in good
    ensures WellFormed(knn) ==> WellFormed(good)
    ensures forall p :: multiset(good)[p] == if PassesRatioTest(p) then multiset(knn)[p] else 0
  {
    var good := Filter(knn, PassesRatioTest);
    assert forall p :: p in good ==> multiset(good)[p] > 0;
    assert forall p :: p in knn ==> multiset(knn)[p] > 0;
    SubsetWellFormed(knn, good);
    good
  }

  /** Well-formedness is a property of each pair, so it carries over to any selection of pairs. */
  lemma SubsetWellFormed(knn: seq<KnnPair>, part: seq<KnnPair>)
    requires forall p :: p in part ==> p in knn
    ensures WellFormed(knn) ==> WellFormed(part)
  {
    if WellFormed(knn) {
      forall i | 0 <= i < |part|
        ensures part[i].best <= part[i].second <= PadDistance
      {
        assert part[i] in knn;
      }
    }
  }

  /** The sum of the best distances. */
  function SumBest(good: seq<KnnPair>): nat {
    if good == [] then 0 else good[0].best + SumBest(good[1..])
  }

  lemma {:induction false} SumBestBound(good: seq<KnnPair>)
    requires WellFormed(good)
    ensures SumBest(good) <= PadDistance * |good|
  {
    if good != [] {
      assert WellFormed(good[1..]) by {
        forall i | 0 <= i < |good[1..]| ensures good[1..][i].best <= good[1..][i].second <= PadDistance {
          assert good[1..][i] == good[i + 1];
        }
      }
      SumBestBound(good[1..]);
    }
  }

  /** Python's `round` on the exact quotient `n / d`: the nearest integer, ties to even. */
  function RoundHalfEven(n: int, d: int): (r: int)
    requires d > 0
    ensures -d <= 2 * (n - r * d) <= d
    ensures 2 * (n - r * d) == d || 2 * (n - r * d) == -d ==> r % 2 == 0
  {
    var q := n / d;
    var rem := n % d;
    if 2 * rem < d then q
    else if 2 * rem > d then q + 1
    else if q % 2 == 0 then q
    else q + 1
  }

  lemma MulLeq(a: int, b: int, d: int)
    requires a <= b && d > 0
    ensures a * d <= b * d
  {
  }

  /** A quotient between `lo` and `hi` rounds to an integer between them. */
  lemma RoundWithin(n: int, d: int, lo: int, hi: int)
    requires d > 0 && lo * d <= n <= hi * d
    ensures lo <= RoundHalfEven(n, d) <= hi
  {
    var r := RoundHalfEven(n, d);
    var e := n - r * d;
    assert -d <= 2 * e <= d;
    if r < lo {
      assert (lo - 1) * d == lo * d - d;
      MulLeq(r, lo - 1, d);
      assert false;
    }
    if r > hi {
      assert (hi + 1) * d == hi * d + d;
      MulLeq(hi + 1, r, d);
      assert false;
    }
  }

  /**
    `normalized_quality`: 100 times one minus the mean best distance over
    256, rounded; 0 without good matches (the mean is then taken as 256).
   */
  function NormalizedQuality(good: seq<KnnPair>): (nq: int)
    requires WellFormed(good)
    ensures 0 <= nq <= 100
    ensures good == [] ==> nq == 0
  {
    if good == [] then 0
    else
      var d := PadDistance * |good|;
      var s := SumBest(good);
      SumBestBound(good);
      assert 0 <= d - s <= d;
      QualityWithin(d - s, d);
      RoundHalfEven(100 * (d - s), d)
  }

  lemma QualityWithin(a: int, d: int)
    requires d > 0 && 0 <= a <= d
    ensures 0 <= RoundHalfEven(100 * a, d) <= 100
  {
    MulLeq(a, d, 100);
    RoundWithin(100 * a, d, 0, 100);
  }

  /** `count_score`: the number of good matches as a percentage of 30, capped at 100 and rounded. */
  function CountScore(numGood: nat): (cs: int)
    ensures 0 <= cs <= 100
    ensures numGood >= 30 ==> cs == 100
    ensures numGood < 30 ==> -30 <= 2 * (100 * numGood - 30 * cs) <= 30
  {
    if 100 * numGood >= 3000 then 100
    else
      RoundWithin(100 * numGood, 30, 0, 100);
      RoundHalfEven(100 * numGood, 30)
  }

  /** `final_score`: the 40/60 weighted mean of the two scores, rounded down. */
  function FinalScore(nq: int, cs: int): (f: int)
    requires 0 <= nq <= 100 && 0 <= cs <= 100
    ensures 0 <= f <= 100
    ensures (if nq < cs then nq else cs) <= f <= (if nq < cs then cs else nq)
  {
    (DistanceWeight * nq + CountWeight * cs) / 100
  }

  /** What `match` returns: the decision, the score, the good matches and every knn pair. */
  datatype MatchResult = MatchResult(isMatch: bool, finalScore: int, numGood: nat,
                                     good: seq<KnnPair>, pairs: seq<KnnPair>)

  const NoMatch: MatchResult := MatchResult(false, 0, 0, [], [])

  /**
    `match` on two descriptor sets of sizes `n1` and `n2`. `knn` is the
    matcher's answer, `None` when it raised (the method then answers as
    for too few descriptors).
   */
  function Match(n1: nat, n2: nat, knn: Option<seq<KnnPair>>): (r: MatchResult)
    requires knn.Some? ==> WellFormed(knn.value)
    ensures n1 < KnnK || n2 < KnnK || knn.None? ==> r == NoMatch
    ensures r.isMatch <==> r.numGood >= MinMatches
    ensures r.numGood == |r.good| <= |r.pairs|
    ensures r.good == GoodMatches(r.pairs) && WellFormed(r.pairs) && WellFormed(r.good)
    ensures r != NoMatch ==> knn.Some? && r.pairs == knn.value
    ensures 0 <= r.finalScore <= 100
    ensures r.numGood == 0 ==> r.finalScore == 0
    ensures r.numGood > 0 ==> r.finalScore == FinalScore(NormalizedQuality(r.good), CountScore(r.numGood))
  {
    if n1 < KnnK || n2 < KnnK || knn.None? then NoMatch
    else
      var good := GoodMatches(knn.value);
      var g := |good|;
      var score := if g > 0 then FinalScore(NormalizedQuality(good), CountScore(g)) else 0;
      MatchResult(g >= MinMatches, score, g, good, knn.value)
  }

  /** The `k`-th of the 200 distances: the knn pairs flattened, then padding. */
  function DistanceAt(pairs: seq<KnnPair>, k: nat): nat {
    if k < 2 * |pairs| then
      if k % 2 == 0 then pairs[k / 2].best else pairs[k / 2].second
    else PadDistance
  }

  /** Every pair's best and second distance, pair by pair: the script's flattening. */
  function Flatten(pairs: seq<KnnPair>): (flat: seq<nat>)
    ensures |flat| == 2 * |pairs|
  {
    if pairs == [] then [] else [pairs[0].best, pairs[0].second] + Flatten(pairs[1..])
  }

  /** Entry k of the flattening is the distance `DistanceAt` reads at k. */
  lemma {:induction false} FlattenAt(pairs: seq<KnnPair>, k: nat)
    requires k < 2 * |pairs|
    ensures Flatten(pairs)[k] == DistanceAt(pairs, k)
  {
    if k >= 2 {
      FlattenAt(pairs[1..], k - 2);
      assert (k - 2) / 2 == k / 2 - 1 && (k - 2) % 2 == k % 2;
      assert pairs[1..][k / 2 - 1] == pairs[k / 2];
    }
  }

  /** The padding the script appends: `[256, 256]` pairs, as n entries. */
  function Padding(n: nat): (p: seq<nat>)
    ensures |p| == n
    ensures forall k :: 0 <= k < n ==> p[k] == PadDistance
  {
    seq(n, k => PadDistance)
  }

  /**
    The `distances` field: the flattened pairs padded with 256 up to 200
    entries, or their first 200 when there are at least 100 pairs.
   */
  function Distances(pairs: seq<KnnPair>): (d: seq<nat>)
    ensures |d| == Slots
    ensures |pairs| < MaxPairs ==> d == Flatten(pairs) + Padding(Slots - 2 * |pairs|)
    ensures |pairs| >= MaxPairs ==> d == Flatten(pairs)[..Slots]
  {
    var d := seq(Slots, k requires 0 <= k < Slots => DistanceAt(pairs, k));
    forall k | 0 <= k < Slots && k < 2 * |pairs|
      ensures d[k] == Flatten(pairs)[k]
    {
      FlattenAt(pairs, k);
    }
    if |pairs| < MaxPairs then
      assert d == Flatten(pairs) + Padding(Slots - 2 * |pairs|);
      d
    else
      assert d == Flatten(pairs)[..Slots];
      d
  }

  /**
    The flatten, pad and cut loop of the script: every pair's two
    distances in order, `[256, 256]` pairs until 200 entries, then the
    first 200.
   */
  method PadDistances(pairs: seq<KnnPair>) returns (d: seq<nat>)
    ensures |d| == Slots
    ensures forall k :: 0 <= k < Slots ==> d[k] == DistanceAt(pairs, k)
  {
    var flat: seq<nat> := [];
    var i := 0;
    while i < |pairs|
      invariant 0 <= i <= |pairs|
      invariant |flat| == 2 * i
      invariant forall k :: 0 <= k < |flat| ==> flat[k] == DistanceAt(pairs, k)
    {
      flat := flat + [pairs[i].best, pairs[i].second];
      i := i + 1;
    }
    while |flat| < Slots
      invariant |flat| >= 2 * |pairs|
      invariant forall k :: 0 <= k < |flat| ==> flat[k] == DistanceAt(pairs, k)
      decreases Slots - |flat|
    {
      flat := flat + [PadDistance, PadDistance];
    }
    d := flat[..Slots];
  }

  /** The loop and the reference definition agree. */
  method PadDistancesMatchesReference(pairs: seq<KnnPair>) returns (d: seq<nat>)
    ensures d == Distances(pairs)
  {
    d := PadDistances(pairs);
  }

  /** The contents of `circom_input.json`; the field names are the circuit's. */
  datatype CircomInput = CircomInput(
    normalizedQualit: int,
    countScore: int,
    distanceWeight: nat,
    countWeight: nat,
    threshold: nat,
    lowesRatio: nat,
    minMatches: nat,
    distances: seq<nat>)

  /** `generate_circom_input`. The match decision and the final score are not part of it. */
  function GenerateInput(n1: nat, n2: nat, knn: Option<seq<KnnPair>>): (c: CircomInput)
    requires knn.Some? ==> WellFormed(knn.value)
    ensures |c.distances| == Slots
    ensures 0 <= c.normalizedQualit <= 100 && 0 <= c.countScore <= 100
    ensures c.distanceWeight == DistanceWeight && c.countWeight == CountWeight
    ensures c.threshold == Threshold && c.lowesRatio == LowesRatioFixed && c.minMatches == MinMatches
    ensures c.distances == Distances(Match(n1, n2, knn).pairs)
    ensures c.countScore == CountScore(Match(n1, n2, knn).numGood)
    ensures c.normalizedQualit == NormalizedQuality(Match(n1, n2, knn).good)
  {
    var m := Match(n1, n2, knn);
    CircomInput(NormalizedQuality(m.good), CountScore(m.numGood), DistanceWeight, CountWeight,
                Threshold, LowesRatioFixed, MinMatches, Distances(m.pairs))
  }

  /**
    Without good matches the average distance is taken as 256: the
    quality, the count score and the final score are all 0, and there is
    no match.
   */
  lemma NoGoodMatchesScoresZero(n1: nat, n2: nat, knn: Option<seq<KnnPair>>)
    requires knn.Some? ==> WellFormed(knn.value)
    requires Match(n1, n2, knn).numGood == 0
    ensures GenerateInput(n1, n2, knn).normalizedQualit == 0
    ensures GenerateInput(n1, n2, knn).countScore == 0
    ensures Match(n1, n2, knn).finalScore == 0 && !Match(n1, n2, knn).isMatch
  {
  }

  /**
    The circuit input carries the two scores `match` weighed: with good
    matches, weighting them 40/60 gives back the script's final score.
   */
  lemma CircuitScoresRecomputeFinalScore(n1: nat, n2: nat, knn: Option<seq<KnnPair>>)
    requires knn.Some? ==> WellFormed(knn.value)
    requires Match(n1, n2, knn).numGood > 0
    ensures var c := GenerateInput(n1, n2, knn);
      (c.distanceWeight * c.normalizedQualit + c.countWeight * c.countScore) / 100 == Match(n1, n2, knn).finalScore
  {
  }

  /** Too few descriptors: both scores are 0 and every distance is padding. */
  lemma TooFewDescriptorsIsAllPadding(n1: nat, n2: nat, knn: Option<seq<KnnPair>>)
    requires knn.Some? ==> WellFormed(knn.value)
    requires n1 < KnnK || n2 < KnnK
    ensures var c := GenerateInput(n1, n2, knn);
      c.normalizedQualit == 0 && c.countScore == 0
      && forall k :: 0 <= k < |c.distances| ==> c.distances[k] == PadDistance
  {
  }

  /**
    Enough descriptors and at least ten good matches make a match, and then
    the count score written for the circuit is at least 33.
   */
  lemma MatchCountScore(n1: nat, n2: nat, knn: Option<seq<KnnPair>>)
    requires knn.Some? && WellFormed(knn.value)
    requires n1 >= KnnK && n2 >= KnnK && |GoodMatches(knn.value)| >= MinMatches
    ensures Match(n1, n2, knn).isMatch
    ensures GenerateInput(n1, n2, knn).countScore >= 33
  {
    var g := Match(n1, n2, knn).numGood;
    if g < 30 {
      RoundWithin(100 * g, 30, 33, 100);
    }
  }

  /** Only the first hundred knn pairs reach the circuit; a later pair changes nothing. */
  lemma DistancesKeepFirstHundred(pairs: seq<KnnPair>, more: seq<KnnPair>)
    requires |pairs| >= MaxPairs
    ensures Distances(pairs + more) == Distances(pairs)
  {
    var a := Distances(pairs + more);
    var b := Distances(pairs);
    forall k | 0 <= k < Slots ensures a[k] == b[k] {
      assert (pairs + more)[k / 2] == pairs[k / 2];
    }
  }

  /** How the script ends: its exit status, and the circuit input it wrote. */
  datatype ScriptRun = ScriptRun(exitCode: int, written: Option<CircomInput>)

  /**
    The script's entry point. `args` is `sys.argv` (the script's own name
    first); `load` stands for reading a features file and yields its
    number of descriptors, `None` when the file is unreadable or lacks
    keypoints or descriptors.
   */
  function RunScript(args: seq<string>, load: string -> Option<nat>, knn: Option<seq<KnnPair>>): (r: ScriptRun)
    requires knn.Some? ==> WellFormed(knn.value)
    ensures r.exitCode == 0 <==> r.written.Some?
    ensures r.exitCode == 0 || r.exitCode == 1
    ensures r.exitCode == 0 <==> |args| == 3 && load(args[1]).Some? && load(args[2]).Some?
    ensures r.exitCode == 0 ==> r.written == Some(GenerateInput(load(args[1]).value, load(args[2]).value, knn))
  {
    if |args| != 3 then ScriptRun(1, None)
    else
      var f1 := load(args[1]);
      if f1.None? then ScriptRun(1, None)
      else
        var f2 := load(args[2]);
        if f2.None? then ScriptRun(1, None)
        else ScriptRun(0, Some(GenerateInput(f1.value, f2.value, knn)))
  }
}

=== FILE: common.dfy ===
/**
  Shared vocabulary of the model: optional values, HTTP-style failures,
  the three account roles, and the handful of string operations the
  server and the browser client rely on (prefix/suffix tests, substring
  search, ASCII lower-casing).
 */
module Common {

  /** A value that may be absent (`undefined`/`null` on the JavaScript side). */
  datatype Option<+T> = None | Some(value: T)

  /** The failures the route handlers answer with, each carrying its message. */
  datatype HttpError =
    | BadRequest(message: string)
    | Unauthorized(message: string)
    | Forbidden(message: string)
    | NotFound(message: string)
    | ServerError(message: string)
  {
    /** The HTTP status code sent for this failure. */
    function Code(): int {
      match this
      case BadRequest(_) => 400
      case Unauthorized(_) => 401
      case Forbidden(_) => 403
      case NotFound(_) => 404
      case ServerError(_) => 500
    }
  }

  /** The outcome of a handler: a response body or a failure. */
  datatype Result<+T> = Success(value: T) | Failure(error: HttpError)

  /** The account roles of the user schema. */
  datatype Role = Admin | Employee | Police

  /** The spelling a role is stored and compared under. */
  function RoleName(r: Role): string {
    match r
    case Admin => "admin"
    case Employee => "employee"
    case Police => "police"
  }

  /** Reads a stored role back; anything outside the enum is refused. */
  function ParseRole(s: string): (r: Option<Role>)
    ensures r.Some? <==> (s == "admin" || s == "employee" || s == "police")
    ensures r.Some? ==> RoleName(r.value) == s
  {
    if s == "admin" then Some(Admin)
    else if s == "employee" then Some(Employee)
    else if s == "police" then Some(Police)
    else None
  }

  /** Every role survives being written out and read back. */
  lemma RoleNameRoundTrip(r: Role)
    ensures ParseRole(RoleName(r)) == Some(r)
  {
  }

  /** `s.startsWith(prefix)`. */
  predicate StartsWith(s: string, prefix: string) {
    |prefix| <= |s| && s[..|prefix|] == prefix
  }

  /** `s.endsWith(suffix)`. */
  predicate EndsWith(s: string, suffix: string) {
    |suffix| <= |s| && s[|s| - |suffix|..] == suffix
  }

  /** `needle` occurs in `hay` starting at position `i`. */
  predicate OccursAt(hay: string, needle: string, i: nat) {
    i + |needle| <= |hay| && hay[i..i + |needle|] == needle
  }

  /** `hay.includes(needle)`. */
  predicate Contains(hay: string, needle: string) {
    exists i: nat :: i <= |hay| && OccursAt(hay, needle, i)
  }

  /** The empty string occurs in every string. */
  lemma ContainsEmpty(hay: string)
    ensures Contains(hay, "")
  {
    assert OccursAt(hay, "", 0);
  }

  /** A string contains itself. */
  lemma ContainsSelf(s: string)
    ensures Contains(s, s)
  {
    assert OccursAt(s, s, 0);
  }

  /** Nothing non-empty occurs in the empty string. */
  lemma NothingInEmpty(needle: string)
    requires needle != ""
    ensures !Contains("", needle)
  {
  }

  /** Lower-casing of one character; only the ASCII letters change. */
  function LowerChar(c: char): char {
    if 'A' <= c <= 'Z' then (c as int - 'A' as int + 'a' as int) as char else c
  }

  /** Upper-casing of one character; only the ASCII letters change. */
  function UpperChar(c: char): char {
    if 'a' <= c <= 'z' then (c as int - 'a' as int + 'A' as int) as char else c
  }

  /** `s.toLowerCase()`, restricted to ASCII letters. */
  function Lower(s: string): (r: string)
    ensures |r| == |s|
    ensures forall i :: 0 <= i < |r| ==> !('A' <= r[i] <= 'Z')
    ensures forall i :: 0 <= i < |s| && !('A' <= s[i] <= 'Z') ==> r[i] == s[i]
    ensures forall i :: 0 <= i < |s| && 'A' <= s[i] <= 'Z' ==> r[i] as int == s[i] as int + 32
  {
    seq(|s|, i requires 0 <= i < |s| => LowerChar(s[i]))
  }

  /** Lower-casing twice is lower-casing once. */
  lemma LowerIdempotent(s: string)
    ensures Lower(Lower(s)) == Lower(s)
  {
  }

  /** The decimal text of an integer, as `Number.prototype.toString` writes it. */
  function IntToString(n: int): (r: string)
    ensures r != ""
  {
    if n < 0 then "-" + NatToString(-n) else NatToString(n)
  }

  function NatToString(n: nat): (r: string)
    ensures r != ""
    ensures forall i :: 0 <= i < |r| ==> '0' <= r[i] <= '9'
  {
    if n < 10 then [DigitChar(n)] else NatToString(n / 10) + [DigitChar(n % 10)]
  }

  function DigitChar(d: nat): char
    requires d < 10
  {
    (d + '0' as int) as char
  }

  /** `Array.prototype.filter`: the elements satisfying `p`, in their order. */
  function Filter<T(==,!new)>(s: seq<T>, p: T -> bool): (r: seq<T>)
    ensures |r| <= |s|
    ensures forall x :: multiset(r)[x] == if p(x) then multiset(s)[x] else 0
  {
    if s == [] then []
    else
      assert s == [s[0]] + s[1..];
      if p(s[0]) then [s[0]] + Filter(s[1..], p) else Filter(s[1..], p)
  }

  /** Filtering works piecewise, so it keeps the relative order of what it keeps. */
  lemma {:induction false} FilterAppend<T(!new)>(a: seq<T>, b: seq<T>, p: T -> bool)
    ensures Filter(a + b, p) == Filter(a, p) + Filter(b, p)
  {
    if a == [] {
      assert a + b == b;
    } else {
      assert (a + b)[0] == a[0] && (a + b)[1..] == a[1..] + b;
      FilterAppend(a[1..], b, p);
    }
  }

  /**
    JavaScript's `<` on strings, a proper prefix first. Characters compare
    by code point here; JavaScript compares UTF-16 code units, which agree
    except when a character beyond U+FFFF meets one in U+E000..U+FFFF.
   */
  predicate StrLess(a: string, b: string) {
    if a == [] then b != []
    else if b == [] then false
    else if a[0] != b[0] then a[0] < b[0]
    else StrLess(a[1..], b[1..])
  }

  lemma {:induction false} StrLessIrreflexive(a: string)
    ensures !StrLess(a, a)
  {
    if a != [] {
      StrLessIrreflexive(a[1..]);
    }
  }

  lemma {:induction false} StrLessTransitive(a: string, b: string, c: string)
    requires StrLess(a, b) && StrLess(b, c)
    ensures StrLess(a, c)
  {
    if a != [] && b != [] && c != [] && a[0] == b[0] && b[0] == c[0] {
      StrLessTransitive(a[1..], b[1..], c[1..]);
    }
  }

  /** Two different strings are ordered one way or the other. */
  lemma {:induction false} StrLessTotal(a: string, b: string)
    requires a != b
    ensures StrLess(a, b) || StrLess(b, a)
  {
    if a != [] && b != [] && a[0] == b[0] {
      assert a == [a[0]] + a[1..] && b == [b[0]] + b[1..];
      StrLessTotal(a[1..], b[1..]);
    }
  }

  /** "Not after" is transitive, so `!StrLess(b, a)` orders strings totally. */
  lemma StrLeqTransitive(a: string, b: string, c: string)
    requires !StrLess(b, a) && !StrLess(c, b)
    ensures !StrLess(c, a)
  {
    if StrLess(c, a) {
      if a == b {
        assert false;
      } else {
        StrLessTotal(a, b);
        StrLessTransitive(c, a, b);
        assert false;
      }
    }
  }

  /** How step `n` of a page's step indicator is drawn: "active" from step n on, "completed" once past it. */
  datatype StepLook = StepLook(active: bool, completed: bool)

  function StepIndicator(currentStep: int, n: int): (l: StepLook)
    ensures l.active <==> currentStep >= n
    ensures l.completed <==> currentStep > n
  {
    StepLook(currentStep >= n, currentStep > n)
  }

  /**
    A step indicator never shows a completed step that is not active, and
    moving forward never switches a step off.
   */
  lemma StepIndicatorMonotone(c: int, c': int, n: int)
    requires c <= c'
    ensures StepIndicator(c, n).completed ==> StepIndicator(c, n).active
    ensures StepIndicator(c, n).active ==> StepIndicator(c', n).active
    ensures StepIndicator(c, n).completed ==> StepIndicator(c', n).completed
    ensures StepIndicator(c, n).active && !StepIndicator(c, n + 1).active <==> c == n
  {
  }
}

=== FILE: dashboard.dfy ===
/**
  The administrator's staff table: who may see it, how a column is sorted,
  how the sort toggles, and which employees the search box keeps. The
  browser's `localeCompare` is a parameter, and the order the engine's
  sort produces is given rather than computed.
 */
module Dashboard {
  import opened Common
  import Guards

  /** An employee as the table holds it; `age` is absent when the record has none. */
  datatype Employee = Employee(
    name: string,
    email: string,
    role: string,
    contactInfo: string,
    gender: string,
    age: Option<int>,
    residentialAddress: string)

  /** Only an administrator sees the table; everyone else, logged in or not, gets "Access Denied". */
  function CanSee(user: Option<Guards.ClientUser>): (ok: bool)
    ensures ok <==> user.Some? && user.value.role == "admin"
  {
    user.Some? && user.value.role == "admin"
  }

  /** The page's own check lets in exactly the users the admin route guard lets in. */
  lemma PageAgreesWithAdminGuard(user: Option<Guards.ClientUser>, location: string)
    ensures CanSee(user) <==> Guards.AdminRoute(false, user, location) == Guards.Children
  {
  }

  // ---------------------------------------------------------------------
  // Sorting
  // ---------------------------------------------------------------------

  datatype Column = NameColumn | EmailColumn | RoleColumn | ContactColumn | GenderColumn | AgeColumn | AddressColumn
  datatype Direction = Ascending | Descending
  datatype SortConfig = SortConfig(key: Column, direction: Direction)

  const InitialSort: SortConfig := SortConfig(NameColumn, Ascending)

  /** A text column's value. */
  function TextOf(e: Employee, k: Column): string {
    match k
    case NameColumn => e.name
    case EmailColumn => e.email
    case RoleColumn => e.role
    case ContactColumn => e.contactInfo
    case GenderColumn => e.gender
    case AgeColumn => ""
    case AddressColumn => e.residentialAddress
  }

  /** Whether the column's value is truthy: a non-empty text, or an age present and not zero. */
  predicate HasValue(e: Employee, k: Column) {
    if k == AgeColumn then e.age.Some? && e.age.value != 0 else TextOf(e, k) != ""
  }

  function Sign(n: int): int {
    if n < 0 then -1 else if n > 0 then 1 else 0
  }

  /**
    The table's comparator. An entry without a value goes first when
    ascending and last when descending; two values compare by
    `localeCompare` for text and by difference for ages, negated when
    descending.
   */
  function Compare(c: SortConfig, a: Employee, b: Employee, localeCompare: (string, string) -> int): (r: int)
    ensures !HasValue(a, c.key) ==> (r < 0 <==> c.direction == Ascending) && r != 0
    ensures HasValue(a, c.key) && !HasValue(b, c.key) ==> (r > 0 <==> c.direction == Ascending) && r != 0
    ensures HasValue(a, c.key) && HasValue(b, c.key) && c.key == AgeColumn ==>
      Sign(r) == (if c.direction == Ascending then 1 else -1) * Sign(a.age.value - b.age.value)
    ensures HasValue(a, c.key) && HasValue(b, c.key) && c.key != AgeColumn ==>
      Sign(r) == (if c.direction == Ascending then 1 else -1) * Sign(localeCompare(TextOf(a, c.key), TextOf(b, c.key)))
  {
    var asc := c.direction == Ascending;
    if !HasValue(a, c.key) then (if asc then -1 else 1)
    else if !HasValue(b, c.key) then (if asc then 1 else -1)
    else
      var cmp := if c.key == AgeColumn then a.age.value - b.age.value
                 else localeCompare(TextOf(a, c.key), TextOf(b, c.key));
      if asc then cmp else -cmp
  }

  /**
    The comparator is not antisymmetric: two employees with no value in
    the sorted column each claim to come first (ascending) or last
    (descending), so their order is whatever the engine's algorithm makes
    of it.
   */
  lemma EmptyKeysCompareBothWays(c: SortConfig, a: Employee, b: Employee, localeCompare: (string, string) -> int)
    requires !HasValue(a, c.key) && !HasValue(b, c.key)
    ensures Sign(Compare(c, a, b, localeCompare)) == Sign(Compare(c, b, a, localeCompare)) != 0
  {
  }

  /** An age of zero counts as missing for the sort. */
  lemma ZeroAgeSortsAsMissing(a: Employee, b: Employee, localeCompare: (string, string) -> int)
    requires a.age == Some(0) && b.age.Some? && b.age.value != 0
    ensures Compare(SortConfig(AgeColumn, Ascending), a, b, localeCompare) < 0
    ensures Compare(SortConfig(AgeColumn, Descending), a, b, localeCompare) > 0
  {
  }

  /** `handleSort`: the ascending column turns descending; any other click sorts ascending by that column. */
  function HandleSort(c: SortConfig, key: Column): (c': SortConfig)
    ensures c'.key == key
    ensures c'.direction == Descending <==> c.key == key && c.direction == Ascending
  {
    SortConfig(key, if c.key == key && c.direction == Ascending then Descending else Ascending)
  }

  /** `getSortIndicator`: nothing for other columns, an up arrow ascending and a down arrow descending. */
  function SortIndicator(c: SortConfig, key: Column): (s: Option<string>)
    ensures s.None? <==> c.key != key
    ensures s == Some(" ↑") <==> c.key == key && c.direction == Ascending
    ensures s == Some(" ↓") <==> c.key == key && c.direction == Descending
  {
    if c.key != key then None else Some(if c.direction == Ascending then " ↑" else " ↓")
  }

  /** Clicking one header repeatedly alternates the arrow it shows. */
  lemma HandleSortFlipsIndicator(c: SortConfig, key: Column)
    ensures SortIndicator(HandleSort(c, key), key).Some?
    ensures SortIndicator(HandleSort(HandleSort(c, key), key), key) != SortIndicator(HandleSort(c, key), key)
    ensures c.key != key ==> SortIndicator(HandleSort(c, key), key) == Some(" ↑")
  {
  }

  // ---------------------------------------------------------------------
  // Search
  // ---------------------------------------------------------------------

  /** The age as the search sees it: its decimal text, or nothing. */
  function AgeText(age: Option<int>): string {
    if age.Some? then IntToString(age.value) else ""
  }

  /** The fields the search box looks in; the role is not among them. */
  function SearchFields(e: Employee): (fields: seq<string>)
    ensures |fields| == 6 && fields[0] == e.name && fields[1] == e.email
    ensures fields[2] == e.contactInfo && fields[3] == e.gender && fields[5] == e.residentialAddress
    ensures fields[4] == (if e.age.Some? then IntToString(e.age.value) else "")
  {
    [e.name, e.email, e.contactInfo, e.gender, AgeText(e.age), e.residentialAddress]
  }

  /** Some non-empty field contains the term, ignoring case. */
  predicate Hit(term: string, e: Employee) {
    exists i :: 0 <= i < |SearchFields(e)| && SearchFields(e)[i] != ""
                && Contains(Lower(SearchFields(e)[i]), Lower(term))
  }

  /** The search never looks at the role: changing it neither finds nor hides anyone. */
  lemma SearchIgnoresRole(term: string, e: Employee, role: string)
    ensures Hit(term, e) <==> Hit(term, e.(role := role))
  {
    assert SearchFields(e) == SearchFields(e.(role := role));
  }

  function HitTest(term: string): Employee -> bool {
    (e: Employee) => Hit(term, e)
  }

  /** `filteredEmployees`: the sorted employees the search keeps, in the sorted order. */
  function Visible(sorted: seq<Employee>, term: string): (r: seq<Employee>)
    ensures forall e :: multiset(r)[e] == if Hit(term, e) then multiset(sorted)[e] else 0
  {
    Filter(sorted, HitTest(term))
  }

  /** The search never reorders: any split of the sorted list is searched piece by piece. */
  lemma VisibleKeepsOrder(front: seq<Employee>, back: seq<Employee>, term: string)
    ensures Visible(front + back, term) == Visible(front, term) + Visible(back, term)
  {
    FilterAppend(front, back, HitTest(term));
  }

  /** With an empty search box every employee with a name is listed; one with no field at all never is. */
  lemma EmptySearchKeepsNamed(e: Employee)
    ensures e.name != "" ==> Hit("", e)
    ensures (forall i :: 0 <= i < |SearchFields(e)| ==> SearchFields(e)[i] == "") ==> !Hit("", e)
  {
    if e.name != "" {
      ContainsEmpty(Lower(e.name));
      assert Lower("") == "";
      assert SearchFields(e)[0] != "" && Contains(Lower(SearchFields(e)[0]), Lower(""));
    }
  }

  /** An employee found by email is listed whatever the other fields hold. */
  lemma EmailFinds(sorted: seq<Employee>, e: Employee, term: string)
    requires e in sorted && e.email != "" && Contains(Lower(e.email), Lower(term))
    ensures e in Visible(sorted, term)
  {
    assert SearchFields(e)[1] == e.email;
    assert Hit(term, e);
    assert multiset(sorted)[e] > 0;
    assert multiset(Visible(sorted, term))[e] > 0;
  }
}

=== FILE: email.dfy ===
/**
  The credentials mail sent to a newly created staff member: which role
  name it shows and which privilege note it adds. The mail transport is
  not modelled; the mail is the record handed to it.
 */
module Email {
  import opened Common

  /** A missing or empty role is read as "employee". */
  function EffectiveRole(role: Option<string>): (r: string)
    ensures r != ""
    ensures role.Some? && role.value != "" ==> r == role.value
    ensures role.None? || role.value == "" ==> r == "employee"
  {
    if role.Some? && role.value != "" then role.value else "employee"
  }

  /** The role as the mail names it. */
  function RoleDisplay(role: string): (d: string)
    ensures d == "Administrator" <==> role == "admin"
    ensures d == "Police Officer" <==> role == "police"
    ensures d == "Employee" <==> role != "admin" && role != "police"
  {
    if role == "admin" then "Administrator"
    else if role == "police" then "Police Officer"
    else "Employee"
  }

  /** What the mail carries; the two notes are the optional paragraphs on privileges. */
  datatype CredentialsMail = CredentialsMail(
    to: string,
    subject: string,
    greeting: string,
    email: string,
    password: string,
    roleDisplay: string,
    adminNote: bool,
    policeNote: bool)

  const CredentialsSubject: string := "Your Account Credentials"

  /** `sendEmployeeCredentials`, up to handing the message to the transport. */
  function Credentials(name: string, email: string, password: string, role: Option<string>): (m: CredentialsMail)
    ensures m.to == email && m.email == email && m.subject == CredentialsSubject
    ensures m.password == password && m.greeting == name
    ensures m.roleDisplay == RoleDisplay(EffectiveRole(role))
    ensures m.adminNote <==> EffectiveRole(role) == "admin"
    ensures m.policeNote <==> EffectiveRole(role) == "police"
  {
    var r := EffectiveRole(role);
    CredentialsMail(email, CredentialsSubject, name, email, password, RoleDisplay(r), r == "admin", r == "police")
  }

  /**
    The notes agree with the role line: at most one note, the administrator
    note exactly when the mail says "Administrator", the police note exactly
    when it says "Police Officer"; and a mail without a role reads exactly
    like one for an employee.
   */
  lemma NotesMatchRole(name: string, email: string, password: string, role: Option<string>)
    ensures var m := Credentials(name, email, password, role);
      && !(m.adminNote && m.policeNote)
      && (m.adminNote <==> m.roleDisplay == "Administrator")
      && (m.policeNote <==> m.roleDisplay == "Police Officer")
    ensures Credentials(name, email, password, None) == Credentials(name, email, password, Some("employee"))
    ensures Credentials(name, email, password, Some("")) == Credentials(name, email, password, Some("employee"))
  {
  }

  /** Every stored role gets its own name in the mail, and no two roles share one. */
  lemma StoredRolesNamedApart(a: Role, b: Role)
    requires a != b
    ensures RoleDisplay(RoleName(a)) != RoleDisplay(RoleName(b))
  {
  }
}

=== FILE: forms.dfy ===
/**
  The client's three form validators (registration, adding a staff member,
  editing a profile) and the small decisions around them. The form
  library hands the validator blank fields as absent, so "required" means
  non-empty and the optional format checks pass a blank field. Email and
  URL format are parameters.
 */
module Forms {
  import opened Common
  import Guards

  /** A numeric field as the validator sees it: blank, not a number, or a number. */
  datatype NumberField = Blank | NotANumber | Number(x: real)

  /** A present number must be a positive integer. */
  predicate PositiveInteger(x: real) {
    x > 0.0 && x == x.Floor as real
  }

  predicate MinLength(s: string, n: nat) {
    |s| >= n
  }

  /** The name rule shared by all three forms: required, at least two characters. */
  predicate NameOk(name: string) {
    name != "" && MinLength(name, 2)
  }

  /** The password pair shared by the two account forms. */
  predicate PasswordsOk(password: string, confirmPassword: string) {
    password != "" && MinLength(password, 6) && confirmPassword != "" && confirmPassword == password
  }

  // ---------------------------------------------------------------------
  // Registration
  // ---------------------------------------------------------------------

  datatype RegisterForm = RegisterForm(
    name: string,
    email: string,
    contactInfo: string,
    residentialAddress: string,
    gender: string,
    age: NumberField,
    password: string,
    confirmPassword: string)

  const BlankRegisterForm := RegisterForm("", "", "", "", "", Blank, "", "")

  /** `RegisterSchema`: every field required, a well-formed email, a positive whole age, matching passwords. */
  function RegisterValid(f: RegisterForm, isEmail: string -> bool): (ok: bool)
    ensures ok <==>
      && |f.name| >= 2 && f.email != "" && isEmail(f.email)
      && f.contactInfo != "" && f.residentialAddress != "" && f.gender != ""
      && f.age.Number? && f.age.x > 0.0 && f.age.x == f.age.x.Floor as real
      && |f.password| >= 6 && f.confirmPassword == f.password
  {
    && NameOk(f.name)
    && (f.email != "" && isEmail(f.email))
    && f.contactInfo != ""
    && f.residentialAddress != ""
    && f.gender != ""
    && (f.age.Number? && PositiveInteger(f.age.x))
    && PasswordsOk(f.password, f.confirmPassword)
  }

  /** The form as first shown never validates; nor does an age of 2.5 or 0. */
  lemma RegisterRejects(f: RegisterForm, isEmail: string -> bool)
    ensures !RegisterValid(BlankRegisterForm, isEmail)
    ensures f.age == Number(2.5) || f.age == Number(0.0) ==> !RegisterValid(f, isEmail)
  {
    assert (2.5).Floor == 2;
  }

  // ---------------------------------------------------------------------
  // Adding a staff member
  // ---------------------------------------------------------------------

  datatype AddEmployeeForm = AddEmployeeForm(
    name: string,
    email: string,
    contactInfo: string,
    address: string,
    gender: string,
    age: NumberField,
    password: string,
    confirmPassword: string,
    role: string)

  /** The roles the form's radio buttons offer; the initial choice is the first. */
  const OfferedRoles: seq<string> := ["employee", "admin"]

  const BlankAddEmployeeForm := AddEmployeeForm("", "", "", "", "", Blank, "", "", "employee")

  /** `AddEmployeeSchema`: contact details and gender optional, the age optional but a positive integer when given. */
  function AddEmployeeValid(f: AddEmployeeForm, isEmail: string -> bool): (ok: bool)
    ensures ok <==>
      && |f.name| >= 2 && f.email != "" && isEmail(f.email) && f.role != ""
      && (f.age.Blank? || (f.age.Number? && f.age.x > 0.0 && f.age.x == f.age.x.Floor as real))
      && |f.password| >= 6 && f.confirmPassword == f.password
  {
    && NameOk(f.name)
    && (f.email != "" && isEmail(f.email))
    && (match f.age
        case Blank => true
        case NotANumber => false
        case Number(x) => PositiveInteger(x))
    && PasswordsOk(f.password, f.confirmPassword)
    && f.role != ""
  }

  /** The contact fields, gender and age may all be left blank. */
  lemma AddEmployeeOptionalFields(f: AddEmployeeForm, isEmail: string -> bool)
    requires AddEmployeeValid(f, isEmail)
    ensures AddEmployeeValid(f.(contactInfo := "", address := "", gender := "", age := Blank), isEmail)
    ensures BlankAddEmployeeForm.role == OfferedRoles[0] == "employee"
  {
  }

  /** What the registration form would send, as a staff-member form for an employee. */
  function AsStaffForm(f: RegisterForm): AddEmployeeForm {
    AddEmployeeForm(f.name, f.email, f.contactInfo, f.residentialAddress, f.gender, f.age,
                    f.password, f.confirmPassword, "employee")
  }

  /** Registration is the stricter form: whatever it accepts, the staff form accepts too, but not conversely. */
  lemma RegisterStricterThanAddEmployee(f: RegisterForm, isEmail: string -> bool)
    ensures RegisterValid(f, isEmail) ==> AddEmployeeValid(AsStaffForm(f), isEmail)
    ensures AddEmployeeValid(AsStaffForm(f), isEmail) && f.contactInfo == "" ==> !RegisterValid(f, isEmail)
  {
  }

  /** Anyone but an administrator is sent to "/" from the add-staff page. */
  function AddEmployeeRedirect(user: Option<Guards.ClientUser>): (to: Option<string>)
    ensures to.None? <==> user.Some? && user.value.role == "admin"
    ensures to.Some? ==> to.value == "/"
  {
    if user.None? || user.value.role != "admin" then Some("/") else None
  }

  /** The page stays for exactly the users the admin guard lets through. */
  lemma AddEmployeeAgreesWithAdminGuard(user: Option<Guards.ClientUser>, location: string)
    ensures AddEmployeeRedirect(user).None? <==> Guards.AdminRoute(false, user, location) == Guards.Children
  {
  }

  /** The confirmation shown after adding someone: "Admin" for an administrator, "Employee" for anyone else. */
  function AddedMessage(role: string, name: string): (m: string)
    ensures StartsWith(m, "Admin ") <==> role == "admin"
    ensures StartsWith(m, "Employee ") <==> role != "admin"
  {
    var who := if role == "admin" then "Admin" else "Employee";
    var m := who + " " + name + " has been successfully added.";
    assert m[..|who| + 1] == who + " " && m[0] == who[0];
    m
  }

  // ---------------------------------------------------------------------
  // Profile
  // ---------------------------------------------------------------------

  datatype ProfileForm = ProfileForm(name: string, bio: string, profilePicture: string)

  const MaxBio: nat := 300

  /** `ProfileSchema`: the name rule, a bio of at most 300 characters, and a picture that is blank or a URL. */
  function ProfileValid(f: ProfileForm, isUrl: string -> bool): (ok: bool)
    ensures ok <==> |f.name| >= 2 && |f.bio| <= MaxBio && (f.profilePicture == "" || isUrl(f.profilePicture))
    ensures f.profilePicture == "" ==> (ok <==> |f.name| >= 2 && |f.bio| <= MaxBio)
  {
    NameOk(f.name) && |f.bio| <= MaxBio && (f.profilePicture == "" || isUrl(f.profilePicture))
  }

  /** Clearing the picture or the bio never makes a valid profile invalid. */
  lemma ProfileBlankOptional(f: ProfileForm, isUrl: string -> bool)
    requires ProfileValid(f, isUrl)
    ensures ProfileValid(f.(profilePicture := ""), isUrl)
    ensures ProfileValid(f.(bio := ""), isUrl)
  {
  }

  /** How the avatar is drawn: the picture as background, or a placeholder letter. */
  datatype Avatar = Picture(url: string) | Placeholder(letter: string)

  function AvatarOf(name: string, profilePicture: string): (a: Avatar)
    ensures a.Picture? <==> profilePicture != ""
    ensures a.Picture? ==> a.url == profilePicture
    ensures a.Placeholder? && name == "" ==> a.letter == "?"
    ensures a.Placeholder? && name != "" ==> a.letter == [UpperChar(name[0])]
  {
    if profilePicture != "" then Picture(profilePicture)
    else if name != "" then Placeholder([UpperChar(name[0])])
    else Placeholder("?")
  }

  /**
    The placeholder is "?" only for a user without a name (or one whose
    name starts with '?'), and a single character whenever the first
    character is ASCII; upper-casing other characters can lengthen them.
   */
  lemma PlaceholderIsOneLetter(name: string, profilePicture: string)
    requires profilePicture == ""
    ensures name == "" || name[0] < 128 as char ==> |AvatarOf(name, profilePicture).letter| == 1
    ensures name != "" && 'a' <= name[0] <= 'z' ==>
      AvatarOf(name, profilePicture).letter[0] as int == name[0] as int - 32
    ensures AvatarOf(name, profilePicture).letter == "?" <==> name == "" || name[0] == '?'
  {
  }
}

=== FILE: guards.dfy ===
/**
  The client's route guards and its navigation bar. Both read the session
  the page holds: whether it is still loading, and the logged-in user as
  the server described it (a name and a role string).
 */
module Guards {
  import opened Common

  /** The logged-in user as the client holds it. */
  datatype ClientUser = ClientUser(name: string, role: string)

  /** What a guarded route renders. `from` is the location remembered for after login. */
  datatype View = LoadingView | RedirectTo(path: string, from: Option<string>) | Children

  /**
    AdminRoute and PoliceRoute: a loading view first, then the login page
    (remembering where the user was going), then the profile page for
    anyone without the route's role.
   */
  function RoleRoute(required: string, loading: bool, user: Option<ClientUser>, location: string): (v: View)
    ensures loading ==> v == LoadingView
    ensures !loading && user.None? ==> v == RedirectTo("/login", Some(location))
    ensures !loading && user.Some? && user.value.role != required ==> v == RedirectTo("/profile", None)
    ensures v == Children <==> !loading && user.Some? && user.value.role == required
  {
    if loading then LoadingView
    else if user.None? then RedirectTo("/login", Some(location))
    else if user.value.role != required then RedirectTo("/profile", None)
    else Children
  }

  function AdminRoute(loading: bool, user: Option<ClientUser>, location: string): View {
    RoleRoute("admin", loading, user, location)
  }

  function PoliceRoute(loading: bool, user: Option<ClientUser>, location: string): View {
    RoleRoute("police", loading, user, location)
  }

  /** PrivateRoute: any logged-in user gets through; nobody else, and no location is remembered. */
  function PrivateRoute(loading: bool, user: Option<ClientUser>): (v: View)
    ensures loading ==> v == LoadingView
    ensures v == Children <==> !loading && user.Some?
    ensures !loading && user.None? ==> v == RedirectTo("/login", None)
  {
    if loading then LoadingView else if user.Some? then Children else RedirectTo("/login", None)
  }

  /** A role guard is stricter than the private guard, and no user passes both role guards. */
  lemma GuardsNest(loading: bool, user: Option<ClientUser>, location: string)
    ensures AdminRoute(loading, user, location) == Children ==> PrivateRoute(loading, user) == Children
    ensures PoliceRoute(loading, user, location) == Children ==> PrivateRoute(loading, user) == Children
    ensures !(AdminRoute(loading, user, location) == Children && PoliceRoute(loading, user, location) == Children)
    ensures user.None? ==>
      && AdminRoute(loading, user, location) != Children
      && PoliceRoute(loading, user, location) != Children
      && PrivateRoute(loading, user) != Children
  {
  }

  // ---------------------------------------------------------------------
  // Navigation bar
  // ---------------------------------------------------------------------

  datatype NavLink = NavLink(to: string, text: string)

  const DashboardLink := NavLink("/dashboard", "Dashboard")
  const AddEmployeeLink := NavLink("/add-employee", "Add Employee")
  const UploadLink := NavLink("/file-upload", "Upload Data")
  const VerifyLink := NavLink("/police-verification", "Verify Proof")
  const SubmissionsLink := NavLink("/police-submissions", "Submissions")
  const ProfileLink := NavLink("/profile", "Profile")
  const LoginLink := NavLink("/login", "Login")

  /** The logo always links home. */
  const HomeLink := NavLink("/", "Airport Security")

  /** The bar's items: its links in order, and the logout button with the name shown beside it. */
  datatype NavItems = NavItems(links: seq<NavLink>, logout: bool, shownName: Option<string>)

  function Items(user: Option<ClientUser>): (n: NavItems)
    ensures user.None? <==> n.links == [LoginLink]
    ensures n.logout <==> user.Some?
    ensures n.shownName.Some? <==> user.Some? && user.value.name != ""
    ensures user.Some? ==>
      && (DashboardLink in n.links <==> user.value.role == "admin")
      && (AddEmployeeLink in n.links <==> user.value.role == "admin")
      && (UploadLink in n.links <==> user.value.role != "police")
      && (VerifyLink in n.links <==> user.value.role == "police")
      && (SubmissionsLink in n.links <==> user.value.role == "police")
      && ProfileLink in n.links && n.links[|n.links| - 1] == ProfileLink
      && LoginLink !in n.links
  {
    match user
    case None => NavItems([LoginLink], false, None)
    case Some(u) =>
      var links :=
        if u.role == "admin" then [DashboardLink, AddEmployeeLink, UploadLink, ProfileLink]
        else if u.role == "police" then [VerifyLink, SubmissionsLink, ProfileLink]
        else [UploadLink, ProfileLink];
      NavItems(links, true, if u.name != "" then Some(u.name) else None)
  }

  /** A link is highlighted when the current path is its target. */
  predicate Active(pathname: string, l: NavLink) {
    pathname == l.to
  }

  predicate DistinctTargets(links: seq<NavLink>) {
    forall i, j :: 0 <= i < j < |links| ==> links[i].to != links[j].to
  }

  /** The bar, logo included, never shows two links to one place, so at most one is highlighted. */
  lemma AtMostOneActive(user: Option<ClientUser>, pathname: string)
    ensures DistinctTargets([HomeLink] + Items(user).links)
    ensures var links := [HomeLink] + Items(user).links;
      forall i, j :: 0 <= i < j < |links| && Active(pathname, links[i]) ==> !Active(pathname, links[j])
  {
    var links := [HomeLink] + Items(user).links;
    if user.None? {
      assert links == [HomeLink, LoginLink];
    } else if user.value.role == "admin" {
      assert links == [HomeLink, DashboardLink, AddEmployeeLink, UploadLink, ProfileLink];
    } else if user.value.role == "police" {
      assert links == [HomeLink, VerifyLink, SubmissionsLink, ProfileLink];
    } else {
      assert links == [HomeLink, UploadLink, ProfileLink];
    }
  }

  /**
    The bar and the guards agree: a logged-in user sees the dashboard link
    exactly when the admin guard lets them in, the police links exactly
    when the police guard does, and the profile link, which the private
    guard always admits.
   */
  lemma LinksMatchGuards(u: ClientUser, location: string)
    ensures DashboardLink in Items(Some(u)).links <==> AdminRoute(false, Some(u), location) == Children
    ensures VerifyLink in Items(Some(u)).links <==> PoliceRoute(false, Some(u), location) == Children
    ensures UploadLink in Items(Some(u)).links <==> PoliceRoute(false, Some(u), location) != Children
    ensures ProfileLink in Items(Some(u)).links && PrivateRoute(false, Some(u)) == Children
  {
  }
}

=== FILE: stages.dfy ===
/**
  The server side of the proof pipeline: the fingerprint upload with its
  preprocessing step, the three step routes (circuit input, witness,
  proof) and the legacy all-in-one route. Every external command is an
  oracle: the model is told whether it exited normally and which paths
  exist on disk afterwards. What the handlers decide around those
  commands (input checks before running, output checks after, decoding of
  the match flag) is modelled exactly.
 */
module Stages {
  import opened Common

  /** What an external command did: exited normally with its captured output, or threw (non-zero exit, timeout). */
  datatype Exec = Completed(stdout: string, stderr: string) | Threw(message: string)

  /** The commands the routes run. */
  datatype Command =
    | Preprocess(image: string, features: string)
    | CompareFeatures(features1: string, features2: string)
    | GenerateWitness(circomInput: string, witnessPath: string)
    | ExportWitness(witnessPath: string, json: string)
    | Prove(witnessPath: string, proof: string, publicInputs: string)
    | ExportVerificationKey(zkey: string, key: string)
    | VerifyProof(key: string, publicInputs: string, proof: string)

  /** One command's run: how it ended and the paths that exist on disk afterwards. */
  datatype ToolRun = ToolRun(exec: Exec, diskAfter: set<string>)

  /** The fixed file names every run writes to. */
  const TempDir: string := "temp/"
  const CircomInputFile: string := "temp/circom_input.json"
  const WitnessFile: string := "temp/witness.wtns"
  const WitnessJsonFile: string := "temp/witness.json"
  const ProofFile: string := "temp/proof.json"
  const PublicFile: string := "temp/public.json"
  const ZkeyFile: string := "temp/circuit_0001.zkey"

  /** A route's answer and the commands it ran, in order. */
  datatype Reply<T> = Reply(result: Result<T>, ran: seq<Command>)

  /** A file as multer hands it over: where it was stored, the client's file name, its declared type and its size. */
  datatype UploadedFile = UploadedFile(path: string, originalName: string, mimetype: string, size: nat)

  const MaxImageBytes: nat := 10 * 1024 * 1024

  /** The upload filter of the fingerprint route: TIFF only, at most 10 MB. */
  predicate ImageAccepted(f: UploadedFile) {
    f.mimetype == "image/tiff" && f.size <= MaxImageBytes
  }

  /**
    The text after the last '/'. Node's `path.basename` first drops
    trailing slashes; multer's storage paths never end in one, and for
    those paths the two agree.
   */
  function BaseName(p: string): (r: string)
    ensures '/' !in r
    ensures |r| <= |p| && r == p[|p| - |r|..]
    ensures |r| < |p| ==> p[|p| - |r| - 1] == '/'
  {
    if p == [] then []
    else if p[|p| - 1] == '/' then []
    else BaseName(p[..|p| - 1]) + [p[|p| - 1]]
  }

  /** Where preprocessing writes the features of an uploaded image. */
  function FeaturesPathFor(image: string): string {
    TempDir + BaseName(image) + ".pkl"
  }

  datatype Preprocessed = Preprocessed(filePath: string, pklFilePath: string)

  /**
    POST /upload-fingerprint. A rejected file never reaches the handler:
    multer's error goes to Express's default handler, which answers 500.
    This route does not check that the features file was written.
   */
  function UploadFingerprint(file: Option<UploadedFile>, run: ToolRun): (r: Reply<Preprocessed>)
    ensures file.None? ==> r == Reply(Failure(BadRequest("No file uploaded")), [])
    ensures file.Some? && !ImageAccepted(file.value) ==> r.result.Failure? && r.result.error.Code() == 500 && r.ran == []
    ensures r.result.Success? <==> file.Some? && ImageAccepted(file.value) && run.exec.Completed?
    ensures r.result.Success? ==> r.result.value == Preprocessed(file.value.path, FeaturesPathFor(file.value.path))
    ensures file.Some? && ImageAccepted(file.value) ==>
      r.ran == [Preprocess(file.value.path, FeaturesPathFor(file.value.path))]
  {
    match file
    case None => Reply(Failure(BadRequest("No file uploaded")), [])
    case Some(f) =>
      if f.mimetype != "image/tiff" then Reply(Failure(ServerError("Only TIFF files are allowed")), [])
      else if f.size > MaxImageBytes then Reply(Failure(ServerError("File too large")), [])
      else
        var pkl := FeaturesPathFor(f.path);
        var cmd := Preprocess(f.path, pkl);
        if run.exec.Threw? then Reply(Failure(ServerError("Preprocessing failed")), [cmd])
        else Reply(Success(Preprocessed(f.path, pkl)), [cmd])
  }

  /** An input path is usable when it is given (non-empty) and exists on disk. */
  predicate Usable(path: string, disk: set<string>) {
    path != "" && path in disk
  }

  /**
    The checks and the command of POST /generate-circom-input; `thrown` is
    the message the route answers with when the comparison command throws.
   */
  function CircomInputReply(pkl1: string, pkl2: string, disk: set<string>, run: ToolRun, thrown: string): (r: Reply<string>)
    ensures !(Usable(pkl1, disk) && Usable(pkl2, disk)) ==>
      r.result.Failure? && r.result.error.Code() == 400 && r.ran == []
    ensures Usable(pkl1, disk) && Usable(pkl2, disk) ==> r.ran == [CompareFeatures(pkl1, pkl2)]
    ensures r.result.Success? <==>
      Usable(pkl1, disk) && Usable(pkl2, disk) && run.exec.Completed? && CircomInputFile in run.diskAfter
    ensures r.result.Success? ==> r.result.value == CircomInputFile
    ensures r.result.Failure? && r.ran != [] ==> r.result.error.Code() == 500
    ensures Usable(pkl1, disk) && Usable(pkl2, disk) && run.exec.Threw? ==>
      r.result == Failure(ServerError(thrown))
  {
    if pkl1 == "" || pkl2 == "" then Reply(Failure(BadRequest("Both PKL files are required")), [])
    else if pkl1 !in disk then Reply(Failure(BadRequest("File not found: " + pkl1)), [])
    else if pkl2 !in disk then Reply(Failure(BadRequest("File not found: " + pkl2)), [])
    else
      var cmd := CompareFeatures(pkl1, pkl2);
      if run.exec.Threw? then Reply(Failure(ServerError(thrown)), [cmd])
      else if CircomInputFile !in run.diskAfter then
        Reply(Failure(ServerError("Failed to generate circom input file")), [cmd])
      else Reply(Success(CircomInputFile), [cmd])
  }

  /**
    POST /generate-circom-input as written. The inner catch builds its
    reply from a constant declared inside the `try` block, so the reference
    itself throws and the outer catch answers with its own message.
   */
  function GenerateCircomInput(pkl1: string, pkl2: string, disk: set<string>, run: ToolRun): (r: Reply<string>)
    ensures r.result.Success? <==>
      Usable(pkl1, disk) && Usable(pkl2, disk) && run.exec.Completed? && CircomInputFile in run.diskAfter
    ensures Usable(pkl1, disk) && Usable(pkl2, disk) && run.exec.Threw? ==>
      r == Reply(Failure(ServerError("An error occurred during circom input generation")), [CompareFeatures(pkl1, pkl2)])
  {
    CircomInputReply(pkl1, pkl2, disk, run, "An error occurred during circom input generation")
  }

  /** POST /generate-circom-input as its inner catch means it: a thrown comparison is reported as such. */
  function GenerateCircomInputIntended(pkl1: string, pkl2: string, disk: set<string>, run: ToolRun): (r: Reply<string>)
    ensures r.result.Success? <==>
      Usable(pkl1, disk) && Usable(pkl2, disk) && run.exec.Completed? && CircomInputFile in run.diskAfter
    ensures Usable(pkl1, disk) && Usable(pkl2, disk) && run.exec.Threw? ==>
      r == Reply(Failure(ServerError("Failed to generate circom input")), [CompareFeatures(pkl1, pkl2)])
  {
    CircomInputReply(pkl1, pkl2, disk, run, "Failed to generate circom input")
  }

  /**
    When the comparison throws on usable inputs, the route as written never
    sends the inner catch's message; the intended route does. Everywhere
    else the two answer the same and run the same commands.
   */
  lemma CircomThrowReachesOuterCatch(pkl1: string, pkl2: string, disk: set<string>, run: ToolRun)
    ensures Usable(pkl1, disk) && Usable(pkl2, disk) && run.exec.Threw? ==>
      && GenerateCircomInput(pkl1, pkl2, disk, run).result
           == Failure(ServerError("An error occurred during circom input generation"))
      && GenerateCircomInputIntended(pkl1, pkl2, disk, run).result
           == Failure(ServerError("Failed to generate circom input"))
    ensures !(Usable(pkl1, disk) && Usable(pkl2, disk) && run.exec.Threw?) ==>
      GenerateCircomInput(pkl1, pkl2, disk, run) == GenerateCircomInputIntended(pkl1, pkl2, disk, run)
    ensures GenerateCircomInput(pkl1, pkl2, disk, run).ran == GenerateCircomInputIntended(pkl1, pkl2, disk, run).ran
  {
  }

  /** POST /generate-witness. */
  function GenerateWitnessStep(circomInput: string, disk: set<string>, run: ToolRun): (r: Reply<string>)
    ensures !Usable(circomInput, disk) ==> r.result.Failure? && r.result.error.Code() == 400 && r.ran == []
    ensures Usable(circomInput, disk) ==> r.ran == [GenerateWitness(circomInput, WitnessFile)]
    ensures r.result.Success? <==>
      Usable(circomInput, disk) && run.exec.Completed? && WitnessFile in run.diskAfter
    ensures r.result.Success? ==> r.result.value == WitnessFile
    ensures r.result.Failure? && r.ran != [] ==> r.result.error.Code() == 500
  {
    if circomInput == "" then Reply(Failure(BadRequest("circomInputFile is required")), [])
    else if circomInput !in disk then Reply(Failure(BadRequest("Circom input file not found: " + circomInput)), [])
    else
      var cmd := GenerateWitness(circomInput, WitnessFile);
      if run.exec.Threw? then Reply(Failure(ServerError("Failed to generate witness")), [cmd])
      else if WitnessFile !in run.diskAfter then Reply(Failure(ServerError("Failed to generate witness file")), [cmd])
      else Reply(Success(WitnessFile), [cmd])
  }

  /** A JSON value as far as the match flag cares: a string, or anything else. */
  datatype JsonValue = JString(text: string) | JOther

  /**
    Reading back the prover's two files. `publicInputs` is `None` when
    `public.json` does not parse or holds `null` (indexing it throws).
    Otherwise it lists what indexing the parsed value yields at 0, 1, …:
    the elements of an array, the characters of a string, the values of an
    object's "0", "1", … keys (a missing one reads as `JOther`), and
    nothing for a number or a boolean.
   */
  datatype ProofRead = ProofRead(proofParses: bool, publicInputs: Option<seq<JsonValue>>)

  /** The step route's match flag: public input 0 is the string "1". */
  function StepMatchFound(publicInputs: seq<JsonValue>): bool {
    |publicInputs| > 0 && publicInputs[0] == JString("1")
  }

  /** The legacy route's match flag: public input 1 is the string "1". */
  function LegacyMatchFound(publicInputs: seq<JsonValue>): bool {
    |publicInputs| > 1 && publicInputs[1] == JString("1")
  }

  /**
    The two routes decode the same public inputs differently: each flag
    reads one position only, and there are inputs on which they disagree
    both ways.
   */
  lemma MatchFlagsDiverge(p: seq<JsonValue>, q: seq<JsonValue>)
    requires |p| > 1 && |q| > 1 && p[0] == q[0] && p[1] != q[1]
    ensures StepMatchFound(p) == StepMatchFound(q)
    ensures (p[1] == JString("1")) ==> LegacyMatchFound(p) != LegacyMatchFound(q)
    ensures StepMatchFound([JString("1"), JString("0")]) && !LegacyMatchFound([JString("1"), JString("0")])
    ensures !StepMatchFound([JString("0"), JString("1")]) && LegacyMatchFound([JString("0"), JString("1")])
  {
  }

  /** The step route's answer once a proof exists. */
  datatype ProofReady = ProofReady(matchFound: bool, proofPath: string, publicPath: string)

  /** POST /generate-proof. */
  function GenerateProofStep(witnessPath: string, disk: set<string>, run: ToolRun, read: ProofRead): (r: Reply<ProofReady>)
    ensures !Usable(witnessPath, disk) ==> r.result.Failure? && r.result.error.Code() == 400 && r.ran == []
    ensures Usable(witnessPath, disk) ==> r.ran == [Prove(witnessPath, ProofFile, PublicFile)]
    ensures r.result.Success? <==>
      && Usable(witnessPath, disk) && run.exec.Completed?
      && ProofFile in run.diskAfter && PublicFile in run.diskAfter
      && read.proofParses && read.publicInputs.Some?
    ensures r.result.Success? ==>
      r.result.value == ProofReady(StepMatchFound(read.publicInputs.value), ProofFile, PublicFile)
    ensures r.result.Failure? && r.ran != [] ==> r.result.error.Code() == 500
  {
    if witnessPath == "" then Reply(Failure(BadRequest("witnessFile is required")), [])
    else if witnessPath !in disk then Reply(Failure(BadRequest("Witness file not found: " + witnessPath)), [])
    else
      var cmd := Prove(witnessPath, ProofFile, PublicFile);
      if run.exec.Threw? then Reply(Failure(ServerError("Failed to generate proof")), [cmd])
      else if ProofFile !in run.diskAfter || PublicFile !in run.diskAfter then
        Reply(Failure(ServerError("Failed to generate proof")), [cmd])
      else if !read.proofParses || read.publicInputs.None? then
        // JSON.parse throws inside the command's try block
        Reply(Failure(ServerError("Failed to generate proof")), [cmd])
      else Reply(Success(ProofReady(StepMatchFound(read.publicInputs.value), ProofFile, PublicFile)), [cmd])
  }

  /**
    A route refused for a missing input did not run anything: its answer is
    the same whatever the command would have done.
   */
  lemma RefusedStagesIgnoreTools(pkl1: string, pkl2: string, input: string, witnessPath: string,
                                 disk: set<string>, run1: ToolRun, run2: ToolRun, read1: ProofRead, read2: ProofRead)
    ensures !(Usable(pkl1, disk) && Usable(pkl2, disk)) ==>
      GenerateCircomInput(pkl1, pkl2, disk, run1) == GenerateCircomInput(pkl1, pkl2, disk, run2)
    ensures !Usable(input, disk) ==>
      GenerateWitnessStep(input, disk, run1) == GenerateWitnessStep(input, disk, run2)
    ensures !Usable(witnessPath, disk) ==>
      GenerateProofStep(witnessPath, disk, run1, read1) == GenerateProofStep(witnessPath, disk, run2, read2)
  {
  }

  /**
    The stages chain: on an unchanged disk, what one step route returns is
    an input the next step route accepts and runs its command on.
   */
  lemma StagesChain(pkl1: string, pkl2: string, disk: set<string>,
                    compare: ToolRun, witnessRun: ToolRun, prove: ToolRun, read: ProofRead)
    ensures var c := GenerateCircomInput(pkl1, pkl2, disk, compare);
      c.result.Success? ==>
        GenerateWitnessStep(c.result.value, compare.diskAfter, witnessRun).ran
          == [GenerateWitness(CircomInputFile, WitnessFile)]
    ensures var w := GenerateWitnessStep(CircomInputFile, disk, witnessRun);
      w.result.Success? ==>
        GenerateProofStep(w.result.value, witnessRun.diskAfter, prove, read).ran
          == [Prove(WitnessFile, ProofFile, PublicFile)]
  {
  }

  /** The results the legacy route needs from its four commands and the final read-back. */
  datatype LegacyRuns = LegacyRuns(compare: ToolRun, witnessRun: ToolRun, exportRun: ToolRun, prove: ToolRun, read: ProofRead)

  datatype LegacyResult = LegacyResult(matchFound: bool, publicInputs: seq<JsonValue>)

  /** The command sequence of the legacy route, in the order it runs them. */
  function LegacyCommands(pkl1: string, pkl2: string): seq<Command> {
    [CompareFeatures(pkl1, pkl2), GenerateWitness(CircomInputFile, WitnessFile),
     ExportWitness(WitnessFile, WitnessJsonFile), Prove(WitnessFile, ProofFile, PublicFile)]
  }

  /**
    POST /verify, the all-in-one route kept for older clients. The witness
    export is optional: its failure is ignored.
   */
  function VerifyAllInOne(pkl1: string, pkl2: string, disk: set<string>, runs: LegacyRuns): (r: Reply<LegacyResult>)
    ensures !(Usable(pkl1, disk) && Usable(pkl2, disk)) ==>
      r.result.Failure? && r.result.error.Code() == 400 && r.ran == []
    ensures r.ran <= LegacyCommands(pkl1, pkl2)
    ensures r.result.Failure? && r.ran != [] ==> r.result.error.Code() == 500
    ensures r.result.Success? <==>
      && Usable(pkl1, disk) && Usable(pkl2, disk)
      && runs.compare.exec.Completed? && CircomInputFile in runs.compare.diskAfter
      && runs.witnessRun.exec.Completed? && WitnessFile in runs.witnessRun.diskAfter
      && runs.prove.exec.Completed? && ProofFile in runs.prove.diskAfter && PublicFile in runs.prove.diskAfter
      && runs.read.proofParses && runs.read.publicInputs.Some?
    ensures r.result.Success? ==>
      && r.ran == LegacyCommands(pkl1, pkl2)
      && r.result.value == LegacyResult(LegacyMatchFound(runs.read.publicInputs.value), runs.read.publicInputs.value)
  {
    if pkl1 == "" || pkl2 == "" then Reply(Failure(BadRequest("Both PKL files are required")), [])
    else if pkl1 !in disk then Reply(Failure(BadRequest("File not found: " + pkl1)), [])
    else if pkl2 !in disk then Reply(Failure(BadRequest("File not found: " + pkl2)), [])
    else
      var all := LegacyCommands(pkl1, pkl2);
      if runs.compare.exec.Threw? then Reply(Failure(ServerError("Verification process failed")), all[..1])
      else if CircomInputFile !in runs.compare.diskAfter then
        Reply(Failure(ServerError("Failed to generate circom input file")), all[..1])
      else if runs.witnessRun.exec.Threw? then Reply(Failure(ServerError("Verification process failed")), all[..2])
      else if WitnessFile !in runs.witnessRun.diskAfter then
        Reply(Failure(ServerError("Failed to generate witness file")), all[..2])
      else if runs.prove.exec.Threw? then Reply(Failure(ServerError("Verification process failed")), all)
      else if ProofFile !in runs.prove.diskAfter || PublicFile !in runs.prove.diskAfter then
        Reply(Failure(ServerError("Failed to generate proof")), all)
      else if !runs.read.proofParses || runs.read.publicInputs.None? then
        Reply(Failure(ServerError("Verification process failed")), all)
      else
        var pub := runs.read.publicInputs.value;
        Reply(Success(LegacyResult(LegacyMatchFound(pub), pub)), all)
  }

  /**
    Two successful uploads hand the comparison route its inputs: when the
    features files were written, it runs the comparison on exactly them;
    when one was not (the upload route does not check), it refuses with
    400 and runs nothing.
   */
  lemma UploadsFeedCompare(f1: Option<UploadedFile>, f2: Option<UploadedFile>, up1: ToolRun, up2: ToolRun,
                           disk: set<string>, compare: ToolRun)
    requires f1.Some? && ImageAccepted(f1.value) && up1.exec.Completed?
    requires f2.Some? && ImageAccepted(f2.value) && up2.exec.Completed?
    ensures UploadFingerprint(f1, up1).result.Success? && UploadFingerprint(f2, up2).result.Success?
    ensures var p1 := UploadFingerprint(f1, up1).result.value.pklFilePath;
      var p2 := UploadFingerprint(f2, up2).result.value.pklFilePath;
      && (p1 in disk && p2 in disk ==> GenerateCircomInput(p1, p2, disk, compare).ran == [CompareFeatures(p1, p2)])
      && (p1 !in disk || p2 !in disk ==>
            GenerateCircomInput(p1, p2, disk, compare).result.Failure?
            && GenerateCircomInput(p1, p2, disk, compare).result.error.Code() == 400
            && GenerateCircomInput(p1, p2, disk, compare).ran == [])
  {
    var p1 := FeaturesPathFor(f1.value.path);
    var p2 := FeaturesPathFor(f2.value.path);
    assert |p1| >= |TempDir| && |p2| >= |TempDir|;
    var c := GenerateCircomInput(p1, p2, disk, compare);
    if p1 in disk && p2 in disk {
      assert Usable(p1, disk) && Usable(p2, disk);
    } else {
      assert !(Usable(p1, disk) && Usable(p2, disk));
      assert c.result.Failure? && c.result.error.Code() == 400 && c.ran == [];
    }
  }

  /**
    The legacy route is the three step routes chained on the same runs:
    it succeeds exactly when each of them would, runs their commands with
    the witness export in between, and returns the same public inputs the
    proof step reads.
   */
  lemma VerifyAllInOneIsTheChain(pkl1: string, pkl2: string, disk: set<string>, runs: LegacyRuns)
    ensures var c := GenerateCircomInput(pkl1, pkl2, disk, runs.compare);
      var w := GenerateWitnessStep(CircomInputFile, runs.compare.diskAfter, runs.witnessRun);
      var p := GenerateProofStep(WitnessFile, runs.witnessRun.diskAfter, runs.prove, runs.read);
      var v := VerifyAllInOne(pkl1, pkl2, disk, runs);
      && (v.result.Success? <==> c.result.Success? && w.result.Success? && p.result.Success?)
      && (v.result.Success? ==>
            && v.ran == c.ran + w.ran + [ExportWitness(WitnessFile, WitnessJsonFile)] + p.ran
            && v.result.value.publicInputs == runs.read.publicInputs.value)
  {
  }
}

=== FILE: submissions_page.dfy ===
/**
  The police officer's submissions page: the fetched listing is filtered
  by a status tab and a search box, then sorted by a column the officer
  picks. Rows are what the page receives as JSON, so the timestamp is its
  ISO text and the status a plain string. The browser's locale formatting
  of a timestamp is a parameter.
 */
module SubmissionsPage {
  import opened Common
  import Archive

  /** One listed submission as the page holds it. */
  datatype Row = Row(id: nat, userName: string, timestamp: string, status: string, verificationNotes: string)

  /** The JSON form of a listing entry; `iso` renders the server's clock as text. */
  function RowOf(s: Archive.Summary, iso: int -> string): Row {
    Row(s.id, s.userName, iso(s.timestamp), Archive.StatusName(s.status), s.verificationNotes)
  }

  /** What GET /proof-submissions hands the page. */
  function Fetched(store: Archive.Store, iso: int -> string): (rows: seq<Row>)
    ensures |rows| == |store| == |Archive.List(store)|
    ensures forall i :: 0 <= i < |rows| ==> rows[i] == RowOf(Archive.List(store)[i], iso)
  {
    var l := Archive.List(store);
    Archive.ListIsComplete(store);
    seq(|l|, i requires 0 <= i < |l| => RowOf(l[i], iso))
  }

  // ---------------------------------------------------------------------
  // Filtering
  // ---------------------------------------------------------------------

  /** The status tab: "all" keeps everything, any other tab its own status. */
  predicate StatusKept(filterStatus: string, r: Row) {
    filterStatus == "all" || r.status == filterStatus
  }

  /** The search box: an empty query keeps everything; otherwise the name or the shown date must contain it, ignoring case. */
  predicate SearchKept(query: string, format: string -> string, r: Row) {
    query == ""
    || Contains(Lower(r.userName), Lower(query))
    || Contains(Lower(format(r.timestamp)), Lower(query))
  }

  function HasStatus(status: string): Row -> bool {
    (r: Row) => r.status == status
  }

  function Matches(query: string, format: string -> string): Row -> bool {
    (r: Row) => Contains(Lower(r.userName), Lower(query)) || Contains(Lower(format(r.timestamp)), Lower(query))
  }

  /** The status step of the page's effect. */
  function ByStatus(rows: seq<Row>, filterStatus: string): (r: seq<Row>)
    ensures forall x :: multiset(r)[x] == if StatusKept(filterStatus, x) then multiset(rows)[x] else 0
  {
    if filterStatus != "all" then Filter(rows, HasStatus(filterStatus)) else rows
  }

  /** The search step of the page's effect. */
  function BySearch(rows: seq<Row>, query: string, format: string -> string): (r: seq<Row>)
    ensures forall x :: multiset(r)[x] == if SearchKept(query, format, x) then multiset(rows)[x] else 0
  {
    if query != "" then Filter(rows, Matches(query, format)) else rows
  }

  // ---------------------------------------------------------------------
  // Sorting
  // ---------------------------------------------------------------------

  datatype SortKey = UserNameKey | TimestampKey | StatusKey
  datatype Direction = Asc | Desc
  datatype SortConfig = SortConfig(key: SortKey, direction: Direction)

  /** The page opens sorted by date, newest first. */
  const InitialSort: SortConfig := SortConfig(TimestampKey, Desc)

  function KeyOf(r: Row, k: SortKey): string {
    match k
    case UserNameKey => r.userName
    case TimestampKey => r.timestamp
    case StatusKey => r.status
  }

  /** `a` may stand before `b`: the comparator does not put `b` first. */
  predicate InOrder(c: SortConfig, a: Row, b: Row) {
    if c.direction == Asc then !StrLess(KeyOf(b, c.key), KeyOf(a, c.key))
    else !StrLess(KeyOf(a, c.key), KeyOf(b, c.key))
  }

  predicate SortedBy(c: SortConfig, s: seq<Row>) {
    forall i, j :: 0 <= i < j < |s| ==> InOrder(c, s[i], s[j])
  }

  lemma InOrderTransitive(c: SortConfig, a: Row, b: Row, d: Row)
    requires InOrder(c, a, b) && InOrder(c, b, d)
    ensures InOrder(c, a, d)
  {
    var ka, kb, kd := KeyOf(a, c.key), KeyOf(b, c.key), KeyOf(d, c.key);
    if c.direction == Asc {
      StrLeqTransitive(ka, kb, kd);
    } else {
      StrLeqTransitive(kd, kb, ka);
    }
  }

  /** Any two rows can stand in some order: the comparator never says "less" both ways. */
  lemma InOrderTotal(c: SortConfig, a: Row, b: Row)
    ensures InOrder(c, a, b) || InOrder(c, b, a)
  {
    var ka, kb := KeyOf(a, c.key), KeyOf(b, c.key);
    if StrLess(ka, kb) && StrLess(kb, ka) {
      StrLessTransitive(ka, kb, ka);
      StrLessIrreflexive(ka);
    }
  }

  lemma PrependSorted(c: SortConfig, a: Row, t: seq<Row>)
    requires SortedBy(c, t)
    requires t != [] ==> InOrder(c, a, t[0])
    ensures SortedBy(c, [a] + t)
  {
    forall i, j | 0 <= i < j < |[a] + t|
      ensures InOrder(c, ([a] + t)[i], ([a] + t)[j])
    {
      if i == 0 && j > 1 {
        InOrderTransitive(c, a, t[0], t[j - 1]);
      }
    }
  }

  /** Puts `x` in front of the first entry it may precede, so that it stays ahead of entries with an equal key. */
  function Insert(c: SortConfig, x: Row, s: seq<Row>): (r: seq<Row>)
    requires SortedBy(c, s)
    ensures SortedBy(c, r)
    ensures multiset(r) == multiset(s) + multiset{x}
    ensures |r| == |s| + 1 && (r[0] == x || (s != [] && r[0] == s[0]))
  {
    if s == [] then [x]
    else if InOrder(c, x, s[0]) then
      PrependSorted(c, x, s);
      [x] + s
    else
      InOrderTotal(c, x, s[0]);
      var rest := Insert(c, x, s[1..]);
      PrependSorted(c, s[0], rest);
      assert s == [s[0]] + s[1..];
      [s[0]] + rest
  }

  /** `Array.prototype.sort` with the page's comparator: a stable sort on the chosen key and direction. */
  function Sort(c: SortConfig, s: seq<Row>): (r: seq<Row>)
    ensures SortedBy(c, r)
    ensures multiset(r) == multiset(s)
  {
    if s == [] then []
    else
      assert s == [s[0]] + s[1..];
      Insert(c, s[0], Sort(c, s[1..]))
  }

  /** A list already in order comes back unchanged: the sort never swaps entries with equal keys. */
  lemma {:induction false} SortKeepsSorted(c: SortConfig, s: seq<Row>)
    requires SortedBy(c, s)
    ensures Sort(c, s) == s
  {
    if s != [] {
      assert SortedBy(c, s[1..]);
      SortKeepsSorted(c, s[1..]);
      assert s == [s[0]] + s[1..];
    }
  }

  // ---------------------------------------------------------------------
  // What the table shows
  // ---------------------------------------------------------------------

  /**
    The filter-and-sort effect: the rows shown are exactly the fetched rows
    passing the tab and the search, each as often as fetched, in the
    chosen order.
   */
  function Displayed(rows: seq<Row>, filterStatus: string, query: string, format: string -> string,
                     c: SortConfig): (r: seq<Row>)
    ensures SortedBy(c, r)
    ensures forall x :: (multiset(r)[x]
                         == if StatusKept(filterStatus, x) && SearchKept(query, format, x)
                            then multiset(rows)[x] else 0)
    ensures multiset(r) <= multiset(rows)
  {
    Sort(c, BySearch(ByStatus(rows, filterStatus), query, format))
  }

  /** With the "all" tab and an empty search the table shows every fetched row. */
  lemma NothingHidden(rows: seq<Row>, format: string -> string, c: SortConfig)
    ensures multiset(Displayed(rows, "all", "", format, c)) == multiset(rows)
  {
  }

  /** Every row shown passes the tab and the search. */
  lemma ShownRowsPass(rows: seq<Row>, filterStatus: string, query: string, format: string -> string,
                      c: SortConfig, x: Row)
    requires x in Displayed(rows, filterStatus, query, format, c)
    ensures x in rows && StatusKept(filterStatus, x) && SearchKept(query, format, x)
  {
    var d := Displayed(rows, filterStatus, query, format, c);
    assert multiset(d)[x] > 0;
  }

  /** `requestSort`: clicking the ascending column makes it descending; any other click sorts ascending by that column. */
  function RequestSort(c: SortConfig, key: SortKey): (c': SortConfig)
    ensures c'.key == key
    ensures c'.direction == Desc <==> c.key == key && c.direction == Asc
  {
    SortConfig(key, if c.key == key && c.direction == Asc then Desc else Asc)
  }

  /** After the first click on a column, further clicks alternate between its two directions. */
  lemma RequestSortAlternates(c: SortConfig, key: SortKey)
    ensures RequestSort(RequestSort(c, key), key).direction != RequestSort(c, key).direction
    ensures RequestSort(RequestSort(RequestSort(c, key), key), key) == RequestSort(c, key)
  {
  }

  /** The column header's chevron: none unless the table is sorted by it, up for ascending. */
  function Chevron(c: SortConfig, key: SortKey): (d: Option<string>)
    ensures d.Some? <==> c.key == key
    ensures d == Some("up") <==> c.key == key && c.direction == Asc
  {
    if c.key != key then None else Some(if c.direction == Asc then "up" else "down")
  }

  /** The badge style of a status; anything unknown looks pending. */
  function BadgeClass(status: string): (b: string)
    ensures b == "status-badge-verified" <==> status == "verified"
    ensures b == "status-badge-rejected" <==> status == "rejected"
    ensures b == "status-badge-pending" <==> status != "verified" && status != "rejected"
    ensures status == "pending" || status == "verified" || status == "rejected" ==> b == "status-badge-" + status
  {
    if status == "verified" then "status-badge-verified"
    else if status == "rejected" then "status-badge-rejected"
    else "status-badge-pending"
  }

  /**
    Every row fetched from the archive wears the badge of its own status,
    and the three stored statuses wear three different badges.
   */
  lemma BadgesNameStatuses(store: Archive.Store, iso: int -> string)
    ensures forall st: Archive.Status :: BadgeClass(Archive.StatusName(st)) == "status-badge-" + Archive.StatusName(st)
    ensures forall a: Archive.Status, b: Archive.Status :: a != b ==>
      BadgeClass(Archive.StatusName(a)) != BadgeClass(Archive.StatusName(b))
    ensures forall i :: 0 <= i < |Fetched(store, iso)| ==>
      BadgeClass(Fetched(store, iso)[i].status) == "status-badge-" + Archive.StatusName(Archive.List(store)[i].status)
  {
    var rows := Fetched(store, iso);
    forall i | 0 <= i < |rows|
      ensures BadgeClass(rows[i].status) == "status-badge-" + Archive.StatusName(Archive.List(store)[i].status)
    {
      assert rows[i].status == Archive.StatusName(Archive.List(store)[i].status);
      StoredStatusBadge(Archive.List(store)[i].status);
    }
  }

  lemma StoredStatusBadge(st: Archive.Status)
    ensures BadgeClass(Archive.StatusName(st)) == "status-badge-" + Archive.StatusName(st)
  {
  }

  // ---------------------------------------------------------------------
  // Tab counts
  // ---------------------------------------------------------------------

  /** `getSubmissionCountByStatus`: counted over everything fetched, whatever the search says. */
  function CountByStatus(rows: seq<Row>, status: string): (n: nat)
    ensures status == "all" ==> n == |rows|
    ensures n <= |rows|
  {
    if status == "all" then |rows| else |Filter(rows, HasStatus(status))|
  }

  /** A tab's count is the number of rows the tab shows while the search box is empty. */
  lemma CountIsTabSize(rows: seq<Row>, status: string, format: string -> string, c: SortConfig)
    ensures CountByStatus(rows, status) == |Displayed(rows, status, "", format, c)|
  {
    var d := Displayed(rows, status, "", format, c);
    assert multiset(d) == multiset(ByStatus(rows, status));
    assert |multiset(d)| == |multiset(ByStatus(rows, status))|;
  }

  predicate KnownStatus(r: Row) {
    r.status == "pending" || r.status == "verified" || r.status == "rejected"
  }

  /** When every status is one of the three, the three tabs' counts add up to the "all" tab's. */
  lemma {:induction false} CountsPartition(rows: seq<Row>)
    requires forall i :: 0 <= i < |rows| ==> KnownStatus(rows[i])
    ensures CountByStatus(rows, "pending") + CountByStatus(rows, "verified") + CountByStatus(rows, "rejected")
            == CountByStatus(rows, "all")
  {
    if rows != [] {
      assert KnownStatus(rows[0]);
      CountsPartition(rows[1..]);
    }
  }

  /** The archive's listing satisfies that: its counts always partition it. */
  lemma FetchedCountsPartition(store: Archive.Store, iso: int -> string)
    ensures var rows := Fetched(store, iso);
      CountByStatus(rows, "pending") + CountByStatus(rows, "verified") + CountByStatus(rows, "rejected")
      == |store|
  {
    var rows := Fetched(store, iso);
    forall i | 0 <= i < |rows|
      ensures KnownStatus(rows[i])
    {
    }
    CountsPartition(rows);
  }

  /**
    When the server's clock renders to text in the same order (as ISO
    dates of one width do), the listing already arrives in the page's
    opening order, so the first sort leaves it as it came.
   */
  lemma FetchedArrivesSorted(store: Archive.Store, iso: int -> string)
    requires forall a: int, b: int :: a < b ==> StrLess(iso(a), iso(b))
    ensures Sort(InitialSort, Fetched(store, iso)) == Fetched(store, iso)
  {
    var l := Archive.List(store);
    var rows := Fetched(store, iso);
    forall i, j | 0 <= i < j < |rows|
      ensures InOrder(InitialSort, rows[i], rows[j])
    {
      var ti, tj := l[i].timestamp, l[j].timestamp;
      if ti == tj {
        StrLessIrreflexive(iso(ti));
      } else {
        assert StrLess(iso(tj), iso(ti));
        if StrLess(iso(ti), iso(tj)) {
          StrLessTransitive(iso(ti), iso(tj), iso(ti));
          StrLessIrreflexive(iso(ti));
        }
      }
    }
    SortKeepsSorted(InitialSort, rows);
  }
}

=== FILE: upload_page.dfy ===
/**
  The browser page that drives the proof pipeline: choosing the two
  fingerprint images, running the five requests in order, and submitting
  the generated proof for archiving. The page's state is a record; each
  handler maps a state (and the server's answers) to the next state and
  the requests it sent, in order. The server is a parameter.
 */
module UploadPage {
  import opened Common

  /** A file picked in the browser: its name and its declared type. */
  datatype PickedFile = PickedFile(name: string, mimeType: string)

  /** The body of the proof step's answer, as far as the page reads it. */
  datatype ProofBody = ProofBody(matchFound: bool, proofPath: string, publicPath: string)

  /** The page's state. Strings are "" when unset, as in the page. */
  datatype State = State(
    referenceFile: Option<PickedFile>,
    referenceName: string,
    personFile: Option<PickedFile>,
    personName: string,
    isProcessing: bool,
    currentStep: int,
    error: string,
    success: string,
    log: seq<string>,
    referencePkl: string,
    personPkl: string,
    result: Option<ProofBody>,
    proofGenerated: bool)

  const Initial: State := State(None, "", None, "", false, 1, "", "", [], "", "", None, false)

  /** A request the page sends. */
  datatype Request =
    | UploadRequest(file: Option<PickedFile>)
    | CircomInputRequest(pklFile1: string, pklFile2: string)
    | WitnessRequest(circomInputFile: string)
    | ProofRequest(witnessFile: string)
    | SubmitRequest(proofPath: string, publicPath: string)

  /** An answer: a body, or a failure with the server's message (or the network error's). */
  datatype Answer<T> = Ok(body: T) | Err(message: string, details: string)

  /** What the server answers to each request. */
  datatype Server = Server(
    upload: Option<PickedFile> -> Answer<string>,
    circomInput: (string, string) -> Answer<string>,
    witnessStep: string -> Answer<string>,
    proof: string -> Answer<ProofBody>,
    submit: (string, string) -> Answer<bool>)

  /** The messages the page shows. */
  const SubmittedMessage: string := "Proof files submitted successfully!"
  const ArchivedMessage: string := "Your proof has been archived successfully and can be accessed by authorized personnel."
  const SubmitErrorPrefix: string := "Error submitting proof: "
  const SubmitFailedPrefix: string := "Failed to submit proof: "
  const MatchResultPrefix: string := "Verification completed. Match result: "
  const CompletedPrefix: string := "Fingerprint verification completed. "
  const ReferenceNotTiffMessage: string := "Please select a valid TIFF image file for the reference fingerprint"
  const PersonNotTiffMessage: string := "Please select a valid TIFF image file for the person's fingerprint"

  predicate IsTiff(f: PickedFile) {
    f.mimeType == "image/tiff"
  }

  function Quote(s: string): string {
    "\"" + s + "\""
  }

  /**
    The two file-input handlers. A TIFF is taken with its name and clears
    the error; anything else (or nothing) clears the slot and sets an error.
   */
  function SelectFile(s: State, reference: bool, selected: Option<PickedFile>): (s': State)
    ensures (if reference then s'.referenceFile else s'.personFile)
            == (if selected.Some? && IsTiff(selected.value) then selected else None)
    ensures (if reference then s'.referenceName else s'.personName)
            == (if selected.Some? && IsTiff(selected.value) then selected.value.name else "")
    ensures s'.error == "" <==> selected.Some? && IsTiff(selected.value)
    ensures s'.success != "" <==> selected.Some? && IsTiff(selected.value)
    ensures (if reference then s'.personFile else s'.referenceFile)
            == (if reference then s.personFile else s.referenceFile)
    ensures s'.result == s.result && s'.proofGenerated == s.proofGenerated && s'.currentStep == s.currentStep
  {
    if selected.Some? && IsTiff(selected.value) then
      var f := selected.value;
      if reference then
        s.(referenceFile := Some(f), referenceName := f.name, error := "",
           success := "Reference fingerprint file " + Quote(f.name) + " selected.")
      else
        s.(personFile := Some(f), personName := f.name, error := "",
           success := "Person's fingerprint file " + Quote(f.name) + " selected.")
    else if reference then
      s.(referenceFile := None, referenceName := "",
         error := ReferenceNotTiffMessage, success := "")
    else
      s.(personFile := None, personName := "",
         error := PersonNotTiffMessage, success := "")
  }

  /** The "Verify Fingerprints" button is enabled. */
  predicate ProcessEnabled(s: State) {
    s.referenceFile.Some? && s.personFile.Some? && !s.isProcessing
  }

  /**
    The button follows the file inputs: a refused selection disables it, a
    TIFF for the missing slot enables it while idle, and a finished run
    leaves it enabled for the same two files.
   */
  lemma ProcessButton(s: State, reference: bool, selected: Option<PickedFile>, server: Server)
    ensures selected.None? || !IsTiff(selected.value) ==> !ProcessEnabled(SelectFile(s, reference, selected))
    ensures && selected.Some? && IsTiff(selected.value) && !s.isProcessing
            && (if reference then s.personFile.Some? else s.referenceFile.Some?) ==>
      ProcessEnabled(SelectFile(s, reference, selected))
    ensures s.referenceFile.Some? && s.personFile.Some? ==> ProcessEnabled(Process(s, server).0)
  {
  }

  function Who(reference: bool): string {
    if reference then "reference" else "person's"
  }

  function WhoCapital(reference: bool): string {
    if reference then "Reference" else "Person's"
  }

  /**
    `uploadFingerprint`: the features path, or "" after a failure (the
    page treats an empty path like a failure).
   */
  function UploadOne(s: State, server: Server, reference: bool): (r: (State, string))
    ensures r.0.currentStep == s.currentStep && r.0.result == s.result && r.0.proofGenerated == s.proofGenerated
    ensures r.0.isProcessing
    ensures |r.0.log| > |s.log| && r.0.log[..|s.log|] == s.log
    ensures r.1 == (match server.upload(if reference then s.referenceFile else s.personFile)
                    case Ok(path) => path
                    case Err(_, _) => "")
  {
    var file := if reference then s.referenceFile else s.personFile;
    var s1 := s.(isProcessing := true,
                 log := s.log + ["Uploading " + Who(reference) + " fingerprint for preprocessing..."]);
    match server.upload(file)
    case Ok(path) =>
      var s2 := if reference then s1.(referencePkl := path) else s1.(personPkl := path);
      (s2.(log := s2.log + [WhoCapital(reference) + " fingerprint preprocessed successfully."]), path)
    case Err(message, _) =>
      (s1.(log := s1.log + ["Error: " + message],
           error := "Failed to upload " + Who(reference) + " fingerprint: " + message), "")
  }

  /** The features path an upload yields: the answer's path, or "" after a failure. */
  function PathOf(a: Answer<string>): string {
    if a.Ok? then a.body else ""
  }

  /** The requests of a complete run, in the order the page sends them. */
  function FullRun(s: State, server: Server): (sent: seq<Request>)
    ensures |sent| == 5
    ensures sent[0] == UploadRequest(s.referenceFile) && sent[1] == UploadRequest(s.personFile)
    ensures sent[2] == CircomInputRequest(PathOf(server.upload(sent[0].file)), PathOf(server.upload(sent[1].file)))
    ensures sent[3] == WitnessRequest(PathOf(server.circomInput(sent[2].pklFile1, sent[2].pklFile2)))
    ensures sent[4] == ProofRequest(PathOf(server.witnessStep(sent[3].circomInputFile)))
  {
    var pkl1 := PathOf(server.upload(s.referenceFile));
    var pkl2 := PathOf(server.upload(s.personFile));
    var input := PathOf(server.circomInput(pkl1, pkl2));
    [UploadRequest(s.referenceFile), UploadRequest(s.personFile), CircomInputRequest(pkl1, pkl2),
     WitnessRequest(input), ProofRequest(PathOf(server.witnessStep(input)))]
  }

  /** Neither upload failed nor came back with an empty path. */
  predicate UploadsSucceed(s: State, server: Server) {
    PathOf(server.upload(s.referenceFile)) != "" && PathOf(server.upload(s.personFile)) != ""
  }

  /** Every step of the run succeeds. */
  predicate RunSucceeds(s: State, server: Server) {
    UploadsSucceed(s, server)
    && LaterStagesSucceed(PathOf(server.upload(s.referenceFile)), PathOf(server.upload(s.personFile)), server)
  }

  /** The error handler shared by the three later stages. */
  function StageFailed(s: State, message: string, details: string): (s': State)
    ensures s'.currentStep == s.currentStep && s'.result == s.result && s'.proofGenerated == s.proofGenerated
    ensures s'.error != "" && !s'.isProcessing
    ensures |s'.log| > |s.log| && s'.log[..|s.log|] == s.log
    ensures s'.referenceFile == s.referenceFile && s'.personFile == s.personFile
  {
    var log := s.log + ["Error: " + message] + (if details != "" then ["Details: " + details] else []);
    s.(log := log, error := StageFailedPrefix + message, isProcessing := false)
  }

  const StageFailedPrefix: string := "Verification process failed: "
  const Step1Message: string := "Step 1: Uploading and preprocessing fingerprints..."
  const Step2Message: string := "Step 2: Comparing fingerprints and generating circom input..."
  const CompareDoneMessage: string := "Fingerprint comparison completed and circom input generated successfully."
  const Step3Message: string := "Step 3: Generating witness for ZK proof..."
  const WitnessDoneMessage: string := "Witness generation completed successfully."
  const Step4Message: string := "Step 4: Generating zero-knowledge proof..."
  const ProofDoneMessage: string := "Zero-knowledge proof generated successfully."

  /** The three stages after the uploads succeed all succeed. */
  predicate LaterStagesSucceed(pkl1: string, pkl2: string, server: Server) {
    var c := server.circomInput(pkl1, pkl2);
    c.Ok? && server.witnessStep(c.body).Ok? && server.proof(server.witnessStep(c.body).body).Ok?
  }

  /** How many of the three later requests are sent: up to and including the first that fails. */
  function LaterRequests(pkl1: string, pkl2: string, server: Server): nat {
    var c := server.circomInput(pkl1, pkl2);
    if c.Err? then 1 else if server.witnessStep(c.body).Err? then 2 else 3
  }

  /** The state once a proof came back. */
  function ProofArrived(s: State, body: ProofBody): (s': State)
    ensures s'.result == Some(body) && s'.proofGenerated && s'.currentStep == 3
    ensures s'.error == s.error && !s'.isProcessing
    ensures |s'.log| > |s.log| && s'.log[..|s.log|] == s.log
    ensures s'.referenceFile == s.referenceFile && s'.personFile == s.personFile
  {
    var verdict := if body.matchFound then "MATCH FOUND" else "NO MATCH";
    s.(result := Some(body), proofGenerated := true, currentStep := 3,
       log := s.log + [MatchResultPrefix + verdict, ProofDoneMessage],
       success := CompletedPrefix + (if body.matchFound then "Match found!" else "No match found."),
       isProcessing := false)
  }

  /** Steps 2 to 4 of a run, once both features paths are known. */
  function LaterStages(s: State, pkl1: string, pkl2: string, server: Server): (r: State)
    requires s.result.None? && !s.proofGenerated
    ensures r.result.Some? <==> LaterStagesSucceed(pkl1, pkl2, server)
    ensures r.proofGenerated <==> LaterStagesSucceed(pkl1, pkl2, server)
    ensures LaterStagesSucceed(pkl1, pkl2, server) ==>
      r.currentStep == 3 && r.error == s.error
      && r.result.value == server.proof(server.witnessStep(server.circomInput(pkl1, pkl2).body).body).body
    ensures !LaterStagesSucceed(pkl1, pkl2, server) ==> r.currentStep == 2 && r.error != ""
    ensures !r.isProcessing
    ensures |r.log| > |s.log| && r.log[..|s.log|] == s.log
    ensures r.referenceFile == s.referenceFile && r.personFile == s.personFile
  {
    var s4 := s.(currentStep := 2, log := s.log + [Step2Message]);
    match server.circomInput(pkl1, pkl2)
    case Err(m, d) => StageFailed(s4, m, d)
    case Ok(input) =>
      var s5 := s4.(log := s4.log + [CompareDoneMessage, Step3Message]);
      match server.witnessStep(input)
      case Err(m, d) => StageFailed(s5, m, d)
      case Ok(witnessFile) =>
        var s6 := s5.(log := s5.log + [WitnessDoneMessage, Step4Message]);
        match server.proof(witnessFile)
        case Err(m, d) => StageFailed(s6, m, d)
        case Ok(body) => ProofArrived(s6, body)
  }

  /** The state at the start of a run: nothing from the previous run survives. */
  function Started(s: State): (s': State)
    ensures s'.result.None? && !s'.proofGenerated && s'.currentStep == 1
    ensures s'.error == "" && s'.success == "" && s'.log == [Step1Message]
    ensures s'.referenceFile == s.referenceFile && s'.personFile == s.personFile
  {
    s.(error := "", success := "", result := None, proofGenerated := false, log := [Step1Message], currentStep := 1)
  }

  /** Step 1 of a run: the clean slate and the two uploads, the second only after the first gave a path. */
  function Uploads(s: State, server: Server): (r: (State, string, string))
    ensures r.1 == PathOf(server.upload(s.referenceFile))
    ensures r.2 == (if r.1 == "" then "" else PathOf(server.upload(s.personFile)))
    ensures r.0.result.None? && !r.0.proofGenerated && r.0.currentStep == 1
    ensures r.1 != "" && r.2 != "" ==> r.0.error == ""
    ensures |r.0.log| > 0 && r.0.log[0] == Step1Message
    ensures r.0.referenceFile == s.referenceFile && r.0.personFile == s.personFile
  {
    var s1 := Started(s);
    var u1 := UploadOne(s1, server, true);
    if u1.1 == "" then (u1.0, "", "")
    else
      var u2 := UploadOne(u1.0, server, false);
      (u2.0, u1.1, u2.1)
  }

  /**
    `processFingerprints`. A run starts from a clean slate, sends the
    requests in order with each one carrying the previous answer, and
    stops at the first failure; a failed upload stops it before any
    comparison.
   */
  function Process(s: State, server: Server): (r: (State, seq<Request>))
    ensures r.1 <= FullRun(s, server) && |r.1| >= 1
    ensures !UploadsSucceed(s, server) ==> |r.1| <= 2 && r.0.currentStep == 1
    ensures UploadsSucceed(s, server) ==>
      r.1 == FullRun(s, server)[..2 + LaterRequests(PathOf(server.upload(s.referenceFile)), PathOf(server.upload(s.personFile)), server)]
    ensures r.0.result.Some? <==> RunSucceeds(s, server)
    ensures r.0.proofGenerated <==> RunSucceeds(s, server)
    ensures RunSucceeds(s, server) ==> r.0.currentStep == 3 && r.0.error == ""
    ensures !r.0.isProcessing
    ensures |r.0.log| > 0 && r.0.log[0] == Step1Message
    ensures r.0.referenceFile == s.referenceFile && r.0.personFile == s.personFile
  {
    var sent := FullRun(s, server);
    var u := Uploads(s, server);
    if u.1 == "" then (u.0.(isProcessing := false), sent[..1])
    else if u.2 == "" then (u.0.(isProcessing := false), sent[..2])
    else (LaterStages(u.0, u.1, u.2, server), sent[..2 + LaterRequests(u.1, u.2, server)])
  }

  /** The requests a run sends carry each answer into the next request. */
  lemma RunThreadsOutputs(s: State, server: Server)
    requires RunSucceeds(s, server)
    ensures var sent := Process(s, server).1;
      && |sent| == 5
      && sent[2] == CircomInputRequest(server.upload(s.referenceFile).body, server.upload(s.personFile).body)
      && sent[3] == WitnessRequest(server.circomInput(sent[2].pklFile1, sent[2].pklFile2).body)
      && sent[4] == ProofRequest(server.witnessStep(sent[3].circomInputFile).body)
      && Process(s, server).0.result == Some(server.proof(sent[4].witnessFile).body)
  {
  }

  /** A proof is ready and the server accepts its submission. */
  predicate SubmissionAccepted(s: State, server: Server) {
    s.result.Some? && s.proofGenerated && server.submit(s.result.value.proofPath, s.result.value.publicPath).Ok?
  }

  /**
    `submitProofForArchiving`: refused unless a proof was generated; a
    successful submission moves to step 4 and withdraws the proof.
   */
  function Submit(s: State, server: Server): (r: (State, seq<Request>))
    ensures !(s.result.Some? && s.proofGenerated) ==>
      r == (s.(error := NoProofMessage), [])
    ensures s.result.Some? && s.proofGenerated ==>
      r.1 == [SubmitRequest(s.result.value.proofPath, s.result.value.publicPath)]
    ensures SubmissionAccepted(s, server) ==> r.0.currentStep == 4 && !r.0.proofGenerated && r.0.error == s.error
    ensures !SubmissionAccepted(s, server) ==>
      r.0.currentStep == s.currentStep && r.0.proofGenerated == s.proofGenerated && r.0.error != ""
    ensures r.0.result == s.result
    ensures r.1 != [] ==> !r.0.isProcessing
  {
    if s.result.None? || !s.proofGenerated then
      (s.(error := NoProofMessage), [])
    else
      var body := s.result.value;
      var sent := [SubmitRequest(body.proofPath, body.publicPath)];
      match server.submit(body.proofPath, body.publicPath)
      case Ok(_) => (Archived(s), sent)
      case Err(m, _) => (ArchivingFailed(s, m), sent)
  }

  const NoProofMessage: string := "No proof files available to submit. Please complete the verification process first."
  const SubmittingMessage: string := "Submitting proof files for secure archiving..."

  /** The state after the server accepted the proof. */
  function Archived(s: State): (s': State)
    ensures s'.currentStep == 4 && !s'.proofGenerated && !s'.isProcessing
    ensures s'.error == s.error && s'.result == s.result
  {
    s.(log := s.log + [SubmittingMessage, SubmittedMessage],
       success := ArchivedMessage,
       currentStep := 4, proofGenerated := false, isProcessing := false)
  }

  /** The state after the server refused the proof. */
  function ArchivingFailed(s: State, message: string): (s': State)
    ensures s'.currentStep == s.currentStep && s'.proofGenerated == s.proofGenerated && !s'.isProcessing
    ensures s'.error != "" && s'.result == s.result
  {
    s.(log := s.log + [SubmittingMessage, SubmitErrorPrefix + message],
       error := SubmitFailedPrefix + message, isProcessing := false)
  }

  /** A proof is archived at most once: right after a successful submission, submitting again sends nothing. */
  lemma SubmitOnlyOnce(s: State, server: Server)
    requires s.result.Some? && s.proofGenerated
    requires server.submit(s.result.value.proofPath, s.result.value.publicPath).Ok?
    ensures Submit(Submit(s, server).0, server).1 == []
  {
  }

  /** A run that succeeds can be followed by exactly one submission of the proof it produced. */
  lemma ProcessThenSubmit(s: State, server: Server)
    requires RunSucceeds(s, server)
    ensures var after := Process(s, server).0;
      Submit(after, server).1 == [SubmitRequest(after.result.value.proofPath, after.result.value.publicPath)]
  {
  }
}

=== FILE: users.dfy ===
/**
  User accounts: the user schema (enums, defaults, required and unique
  fields), self-registration and login with the password hash and the
  session token left abstract, and the profile read and update handlers.
  The user collection is a map from user id to record.
 */
module Users {
  import opened Common

  type UserId = nat

  /** The gender enum of the user schema; `Unset` is the empty string. */
  datatype Gender = Male | Female | Other | Unset

  function GenderName(g: Gender): string {
    match g
    case Male => "male"
    case Female => "female"
    case Other => "other"
    case Unset => ""
  }

  /** The schema's enum validator for `gender`. */
  function ParseGender(s: string): (r: Option<Gender>)
    ensures r.Some? <==> (s == "male" || s == "female" || s == "other" || s == "")
    ensures r.Some? ==> GenderName(r.value) == s
  {
    if s == "male" then Some(Male)
    else if s == "female" then Some(Female)
    else if s == "other" then Some(Other)
    else if s == "" then Some(Unset)
    else None
  }

  /** A stored user. `password` holds the hash, never the plain text. */
  datatype User = User(
    name: string,
    email: string,
    password: string,
    role: Role,
    profilePicture: string,
    contactInfo: string,
    residentialAddress: string,
    gender: Gender,
    age: Option<int>,
    date: int)

  /** The schema's `required` validators; a required string must be non-empty. */
  predicate Valid(u: User) {
    u.name != "" && u.email != "" && u.password != ""
  }

  type Users = map<UserId, User>

  /** The unique index on `email`. */
  predicate UniqueEmails(users: Users) {
    forall a, b :: a in users && b in users && users[a].email == users[b].email ==> a == b
  }

  /** What the collection guarantees of every stored state. */
  predicate StoreValid(users: Users) {
    UniqueEmails(users) && forall id :: id in users ==> Valid(users[id])
  }

  predicate EmailTaken(users: Users, email: string) {
    exists id :: id in users && users[id].email == email
  }

  /** `User.findOne({ email })`: the one user holding `email`, if any. */
  function FindByEmail(users: Users, email: string): (r: Option<UserId>)
    requires UniqueEmails(users)
    ensures r.Some? <==> EmailTaken(users, email)
    ensures r.Some? ==> r.value in users && users[r.value].email == email
  {
    if EmailTaken(users, email) then
      var id :| id in users && users[id].email == email; Some(id)
    else None
  }

  /** A new document built from name, email and password; every other field takes its schema default. */
  function NewUser(name: string, email: string, password: string, now: int): User {
    User(name, email, password, Employee, "", "", "", Unset, None, now)
  }

  /** The user object sent back by register and login (the schema has no `bio`, so it is absent). */
  datatype PublicUser = PublicUser(id: UserId, name: string, email: string, profilePicture: string)

  /** A signed token (whose payload is only the user id) and the public user. */
  datatype Session = Session(token: string, user: PublicUser)

  datatype RegisterRequest = RegisterRequest(name: string, email: string, password: string)

  /**
    POST /register. `hash` is the salted password hash, `sign` the token
    signer (it sees only the user id), `newId` the id the store hands out.
   */
  function Register(users: Users, req: RegisterRequest, newId: UserId, now: int,
                    hash: string -> string, sign: UserId -> string): (r: (Result<Session>, Users))
    requires StoreValid(users)
    requires newId !in users
    ensures r.0.Failure? ==> r.1 == users
    ensures EmailTaken(users, req.email) ==> r.0 == Failure(BadRequest("User already exists"))
    ensures r.0.Success? <==>
      !EmailTaken(users, req.email) && req.name != "" && req.email != "" && hash(req.password) != ""
    ensures r.0.Success? ==>
      && r.1.Keys == users.Keys + {newId}
      && (forall id :: id in users ==> r.1[id] == users[id])
      && r.1[newId].role == Employee
      && r.1[newId].password == hash(req.password)
      && r.1[newId].name == req.name && r.1[newId].email == req.email
      && r.1[newId].profilePicture == "" && r.1[newId].contactInfo == "" && r.1[newId].residentialAddress == ""
      && r.1[newId].gender == Unset && r.1[newId].age == None && r.1[newId].date == now
      && r.0.value == Session(sign(newId), PublicUser(newId, req.name, req.email, ""))
    ensures StoreValid(r.1)
  {
    if EmailTaken(users, req.email) then
      (Failure(BadRequest("User already exists")), users)
    else
      var user := NewUser(req.name, req.email, hash(req.password), now);
      if !Valid(user) then
        // the schema's required validators reject the document on save
        (Failure(ServerError("Server error")), users)
      else
        (Success(Session(sign(newId), PublicUser(newId, user.name, user.email, user.profilePicture))),
         users[newId := user])
  }

  /** POST /login. `matches(plain, hashed)` is the password hash comparison. */
  function Login(users: Users, email: string, password: string,
                 matches: (string, string) -> bool, sign: UserId -> string): (r: Result<Session>)
    requires UniqueEmails(users)
    ensures r.Success? <==>
      exists id :: id in users && users[id].email == email && matches(password, users[id].password)
    ensures r.Failure? ==> r.error == BadRequest("Invalid credentials")
    ensures r.Success? ==>
      && r.value.user.id in users
      && r.value.user.email == email
      && r.value.token == sign(r.value.user.id)
  {
    match FindByEmail(users, email)
    case None => Failure(BadRequest("Invalid credentials"))
    case Some(id) =>
      var u := users[id];
      if !matches(password, u.password) then Failure(BadRequest("Invalid credentials"))
      else Success(Session(sign(id), PublicUser(id, u.name, u.email, u.profilePicture)))
  }

  /** An unknown email and a wrong password cannot be told apart by the caller. */
  lemma LoginFailuresUniform(users: Users, e1: string, p1: string, e2: string, p2: string,
                             matches: (string, string) -> bool, sign: UserId -> string)
    requires UniqueEmails(users)
    requires !EmailTaken(users, e1)
    requires EmailTaken(users, e2) && !matches(p2, users[FindByEmail(users, e2).value].password)
    ensures Login(users, e1, p1, matches, sign) == Login(users, e2, p2, matches, sign)
  {
  }

  /**
    A user who has just registered can log in with the same password,
    provided the hash comparison accepts the hash of that password.
   */
  lemma RegisterThenLogin(users: Users, req: RegisterRequest, newId: UserId, now: int,
                          hash: string -> string, sign: UserId -> string,
                          matches: (string, string) -> bool)
    requires StoreValid(users) && newId !in users
    requires matches(req.password, hash(req.password))
    requires Register(users, req, newId, now, hash, sign).0.Success?
    ensures Login(Register(users, req, newId, now, hash, sign).1, req.email, req.password, matches, sign)
            == Success(Register(users, req, newId, now, hash, sign).0.value)
  {
    var after := Register(users, req, newId, now, hash, sign).1;
    assert after[newId].email == req.email;
    assert FindByEmail(after, req.email) == Some(newId);
  }

  /** A user without its password, as `.select('-password')` returns it. */
  datatype Profile = Profile(
    id: UserId,
    name: string,
    email: string,
    role: Role,
    profilePicture: string,
    contactInfo: string,
    residentialAddress: string,
    gender: Gender,
    age: Option<int>,
    date: int)

  function WithoutPassword(id: UserId, u: User): Profile {
    Profile(id, u.name, u.email, u.role, u.profilePicture, u.contactInfo,
            u.residentialAddress, u.gender, u.age, u.date)
  }

  /** GET /profile/:id. */
  function GetProfile(users: Users, id: UserId): (r: Result<Profile>)
    ensures r.Success? <==> id in users
    ensures r.Failure? ==> r.error == NotFound("User not found")
    ensures r.Success? ==> r.value.id == id && r.value.name == users[id].name && r.value.email == users[id].email
    ensures r.Success? ==> r.value == WithoutPassword(id, users[id])
  {
    if id !in users then Failure(NotFound("User not found")) else Success(WithoutPassword(id, users[id]))
  }

  /**
    The profile of a newly registered user is there at once: an employee
    with the name and email given, no picture, and the id the session
    carries; every other profile is as it was.
   */
  lemma RegisterThenGetProfile(users: Users, req: RegisterRequest, newId: UserId, now: int,
                               hash: string -> string, sign: UserId -> string)
    requires StoreValid(users) && newId !in users
    requires Register(users, req, newId, now, hash, sign).0.Success?
    ensures var (session, after) := Register(users, req, newId, now, hash, sign);
      && GetProfile(after, session.value.user.id).Success?
      && GetProfile(after, session.value.user.id).value.role == Employee
      && GetProfile(after, session.value.user.id).value.name == req.name
      && GetProfile(after, session.value.user.id).value.email == req.email
      && GetProfile(after, session.value.user.id).value.profilePicture == ""
      && (forall id :: id != newId ==> GetProfile(after, id) == GetProfile(users, id))
  {
  }

  /**
    The body of PUT /profile. `None` is a key absent from the request; the
    inner `None` of `age` is an explicit `null`.
   */
  datatype ProfileRequest = ProfileRequest(
    name: Option<string>,
    contactInfo: Option<string>,
    residentialAddress: Option<string>,
    gender: Option<string>,
    age: Option<Option<int>>,
    profilePicture: Option<string>)

  /** Takes the supplied value when the key is present. */
  function Pick<T>(supplied: Option<T>, current: T): T {
    if supplied.Some? then supplied.value else current
  }

  /** PUT /profile for the authenticated user `id`. */
  function UpdateProfile(users: Users, id: UserId, req: ProfileRequest): (r: (Result<Profile>, Users))
    ensures id !in users ==> r.0 == Failure(NotFound("User not found"))
    ensures r.0.Failure? ==> r.1 == users
    ensures r.0.Failure? && id in users ==> req.gender.Some? && ParseGender(req.gender.value).None?
    ensures r.0.Success? ==> id in users && id in r.1
    ensures r.0.Success? ==>
      var old_ := users[id];
      var new_ := r.1[id];
      && r.1 == users[id := new_]
      // never touched by a profile update
      && new_.email == old_.email && new_.password == old_.password
      && new_.role == old_.role && new_.date == old_.date
      // the name changes only to a non-empty value
      && new_.name == (if req.name.Some? && req.name.value != "" then req.name.value else old_.name)
      // the other fields change whenever their key is present, even to ""
      && new_.contactInfo == Pick(req.contactInfo, old_.contactInfo)
      && new_.residentialAddress == Pick(req.residentialAddress, old_.residentialAddress)
      && new_.age == Pick(req.age, old_.age)
      && new_.profilePicture == Pick(req.profilePicture, old_.profilePicture)
      && (req.gender.Some? ==> GenderName(new_.gender) == req.gender.value)
      && (req.gender.None? ==> new_.gender == old_.gender)
      && r.0.value == WithoutPassword(id, new_)
  {
    if id !in users then (Failure(NotFound("User not found")), users)
    else
      var u := users[id];
      var gender := if req.gender.Some? then ParseGender(req.gender.value) else Some(u.gender);
      if gender.None? then
        // the enum validator rejects the document on save
        (Failure(ServerError("Server error")), users)
      else
        var name := if req.name.Some? && req.name.value != "" then req.name.value else u.name;
        var u' := u.(name := name,
                     contactInfo := Pick(req.contactInfo, u.contactInfo),
                     residentialAddress := Pick(req.residentialAddress, u.residentialAddress),
                     gender := gender.value,
                     age := Pick(req.age, u.age),
                     profilePicture := Pick(req.profilePicture, u.profilePicture));
        (Success(WithoutPassword(id, u')), users[id := u'])
  }

  /** A profile update keeps the collection's invariants. */
  lemma UpdateProfilePreservesStore(users: Users, id: UserId, req: ProfileRequest)
    requires StoreValid(users)
    ensures StoreValid(UpdateProfile(users, id, req).1)
  {
    var after := UpdateProfile(users, id, req).1;
    if id in users && after != users {
      forall a, b | a in after && b in after && after[a].email == after[b].email
        ensures a == b
      {
        assert after[a].email == users[a].email && after[b].email == users[b].email;
      }
    }
  }
}

=== FILE: verification.dfy ===
/**
  POST /verify-zkp: a police officer uploads a proof and its public inputs
  and the server checks them against the circuit's verification key. The
  key is looked for in a fixed list of places and, failing that, exported
  from the proving key. The verifier is an external command whose output
  is given to the model.
 */
module Verification {
  import opened Common
  import opened Stages

  const MaxJsonBytes: nat := 5 * 1024 * 1024

  /** `path.extname(name) === '.json'`: the base name ends in ".json" and has something before it. */
  predicate JsonNamed(name: string) {
    var base := BaseName(name);
    EndsWith(base, ".json") && |base| > |".json"|
  }

  /** The upload filter of this route: JSON by declared type or by file name, at most 5 MB. */
  predicate JsonAccepted(f: UploadedFile) {
    (f.mimetype == "application/json" || JsonNamed(f.originalName)) && f.size <= MaxJsonBytes
  }

  /** Where the verification key is looked for, in order. */
  const KeyLocations: seq<string> := [
    "temp/verification_key.json",
    "temp/circuit_verification_key.json",
    "temp/mia2_verification_key.json",
    "temp/verification_key.json",
    "../keys/verification_key.json"
  ]

  /** Where an exported key is written. */
  const ExportedKeyFile: string := "temp/verification_key.json"

  /** The first of `locations` that exists on disk. */
  function FirstExisting(locations: seq<string>, disk: set<string>): (r: Option<string>)
    ensures r.None? <==> forall i :: 0 <= i < |locations| ==> locations[i] !in disk
    ensures r.Some? ==> exists i :: 0 <= i < |locations| && locations[i] == r.value
                                    && r.value in disk
                                    && forall j :: 0 <= j < i ==> locations[j] !in disk
  {
    if locations == [] then None
    else if locations[0] in disk then Some(locations[0])
    else
      var rest := FirstExisting(locations[1..], disk);
      if rest.Some? then
        ghost var i :| 0 <= i < |locations[1..]| && locations[1..][i] == rest.value
                       && rest.value in disk && forall j :: 0 <= j < i ==> locations[1..][j] !in disk;
        assert locations[i + 1] == rest.value;
        rest
      else rest
  }

  /**
    The verification key to use, and the export command run to obtain it
    if one was. The export counts as a success when the command exits
    normally; the file it should have written is not checked.
   */
  function FindKey(disk: set<string>, exportRun: ToolRun): (r: (Option<string>, seq<Command>))
    ensures FirstExisting(KeyLocations, disk).Some? ==> r == (FirstExisting(KeyLocations, disk), [])
    ensures r.1 != [] <==> FirstExisting(KeyLocations, disk).None? && ZkeyFile in disk
    ensures r.1 != [] ==>
      && r.1 == [ExportVerificationKey(ZkeyFile, ExportedKeyFile)]
      && r.0 == (if exportRun.exec.Completed? then Some(ExportedKeyFile) else None)
    ensures r.0.None? <==>
      FirstExisting(KeyLocations, disk).None? && (ZkeyFile !in disk || exportRun.exec.Threw?)
  {
    var found := FirstExisting(KeyLocations, disk);
    if found.Some? then (found, [])
    else if ZkeyFile !in disk then (None, [])
    else
      var cmd := ExportVerificationKey(ZkeyFile, ExportedKeyFile);
      if exportRun.exec.Completed? then (Some(ExportedKeyFile), [cmd]) else (None, [cmd])
  }

  /** The body of a 200 answer. `tampered` is what the client shows as the tamper warning. */
  datatype Outcome = Outcome(verified: bool, tampered: bool, message: string, details: string)

  /**
    The inner `verifyProof`: anything on stderr, or the command throwing,
    reads as tampering; otherwise the proof is valid when the output
    mentions "OK".
   */
  function ReadVerifier(exec: Exec): (o: Outcome)
    ensures o.tampered == !o.verified
    ensures o.verified <==> exec.Completed? && exec.stderr == "" && Contains(exec.stdout, "OK")
  {
    match exec
    case Threw(message) =>
      Outcome(false, true, ThrewMessage, if message != "" then message else ThrewDetails)
    case Completed(stdout, stderr) =>
      if stderr != "" then Outcome(false, true, StderrMessage, stderr)
      else if Contains(stdout, "OK") then Outcome(true, false, ValidMessage, stdout)
      else Outcome(false, true, InvalidMessage, stdout)
  }

  /** The verdict messages. */
  const ThrewMessage: string := "Verification failed: The proof has been tampered with or is invalid."
  const ThrewDetails: string :=
    "The cryptographic verification could not be completed. The proof may be corrupted or tampered with."
  const StderrMessage: string := "The proof is invalid or has been tampered with."
  const ValidMessage: string := "Verification successful: The proof is valid!"
  const InvalidMessage: string := "Verification failed: The proof is invalid or has been tampered with."

  /** POST /verify-zkp. A file the upload filter refuses goes to Express's default handler (500). */
  function VerifyZkp(proof: Option<UploadedFile>, publicInputs: Option<UploadedFile>, disk: set<string>,
                     exportRun: ToolRun, verifyRun: Exec): (r: Reply<Outcome>)
    ensures (proof.Some? && !JsonAccepted(proof.value)) || (publicInputs.Some? && !JsonAccepted(publicInputs.value)) ==>
      r.result.Failure? && r.result.error.Code() == 500 && r.ran == []
    ensures && (proof.None? || publicInputs.None?)
            && (proof.Some? ==> JsonAccepted(proof.value))
            && (publicInputs.Some? ==> JsonAccepted(publicInputs.value)) ==>
      r == Reply(Failure(BadRequest("Both proof.json and public.json files are required")), [])
    ensures r.result.Success? <==>
      && proof.Some? && JsonAccepted(proof.value)
      && publicInputs.Some? && JsonAccepted(publicInputs.value)
      && FindKey(disk, exportRun).0.Some?
    ensures r.result.Success? ==>
      && r.result.value == ReadVerifier(verifyRun)
      && r.ran == FindKey(disk, exportRun).1
                  + [VerifyProof(FindKey(disk, exportRun).0.value, publicInputs.value.path, proof.value.path)]
  {
    if proof.Some? && !JsonAccepted(proof.value) then Reply(Failure(ServerError("Only JSON files are allowed")), [])
    else if publicInputs.Some? && !JsonAccepted(publicInputs.value) then
      Reply(Failure(ServerError("Only JSON files are allowed")), [])
    else if proof.None? || publicInputs.None? then
      Reply(Failure(BadRequest("Both proof.json and public.json files are required")), [])
    else
      var (key, exported) := FindKey(disk, exportRun);
      if key.None? then Reply(Failure(ServerError("Verification key not found")), exported)
      else
        var cmd := VerifyProof(key.value, publicInputs.value.path, proof.value.path);
        Reply(Success(ReadVerifier(verifyRun)), exported + [cmd])
  }

  const FaultMessage: string := "An unexpected error occurred during verification"

  /**
    The route's own catch-all: an error raised by the handler itself (not
    by the verifier) answers 500 with a body claiming neither outcome.
   */
  function FaultReply(errorMessage: string): (r: (HttpError, Outcome))
    ensures r.0.Code() == 500
    ensures !r.1.verified && !r.1.tampered
    ensures r.1.message == FaultMessage
  {
    (ServerError(FaultMessage), Outcome(false, false, FaultMessage, errorMessage))
  }

  /** Every 200 answer reports exactly one of "verified" and "tampered". */
  lemma VerdictIsExclusive(proof: Option<UploadedFile>, publicInputs: Option<UploadedFile>, disk: set<string>,
                           exportRun: ToolRun, verifyRun: Exec)
    requires VerifyZkp(proof, publicInputs, disk, exportRun, verifyRun).result.Success?
    ensures var o := VerifyZkp(proof, publicInputs, disk, exportRun, verifyRun).result.value;
      o.verified != o.tampered
  {
  }

  /**
    A verifier that writes to stderr never validates a proof, whatever its
    standard output says — even an output that reads "OK".
   */
  lemma StderrMeansTampered(stdout: string, stderr: string)
    requires stderr != ""
    ensures !ReadVerifier(Completed(stdout, stderr)).verified
    ensures ReadVerifier(Completed(stdout, stderr)).tampered
  {
  }

  /** The key found first wins: a key at the first location is used even when others exist. */
  lemma FirstLocationWins(disk: set<string>, exportRun: ToolRun)
    requires KeyLocations[0] in disk
    ensures FindKey(disk, exportRun) == (Some(KeyLocations[0]), [])
  {
  }

  /** With no key anywhere and no proving key, nothing is run and the route answers 500. */
  lemma NoKeyNoVerification(proof: UploadedFile, publicInputs: UploadedFile, disk: set<string>,
                            exportRun: ToolRun, verifyRun: Exec)
    requires JsonAccepted(proof) && JsonAccepted(publicInputs)
    requires forall p :: p in KeyLocations ==> p !in disk
    requires ZkeyFile !in disk
    ensures VerifyZkp(Some(proof), Some(publicInputs), disk, exportRun, verifyRun)
            == Reply(Failure(ServerError("Verification key not found")), [])
  {
    assert FirstExisting(KeyLocations, disk).None?;
  }
}

=== FILE: verify_page.dfy ===
/**
  The police officer's verification page: choosing proof.json and
  public.json, sending them to the verifier, and showing the verdict.
  The page's state is a record; the server's answer is a parameter, and
  its body is the verifier's `Outcome`.
 */
module VerifyPage {
  import opened Common
  import Stages
  import Verification
  import UploadPage

  /** The page's state. Strings are "" when unset. */
  datatype State = State(
    proofFile: Option<UploadPage.PickedFile>,
    proofName: string,
    publicFile: Option<UploadPage.PickedFile>,
    publicName: string,
    isVerifying: bool,
    currentStep: int,
    error: string,
    success: string,
    log: seq<string>,
    result: Option<Verification.Outcome>)

  const Initial: State := State(None, "", None, "", false, 1, "", "", [], None)

  /** The messages the page shows. */
  const ProofNotJsonMessage: string := "Please select a valid JSON file for proof.json"
  const PublicNotJsonMessage: string := "Please select a valid JSON file for public.json"
  const BothFilesMessage: string := "Please select both proof.json and public.json files"
  const UploadingMessage: string := "Step 1: Uploading JSON files..."
  const VerifyingMessage: string := "Step 2: Verifying zero-knowledge proof..."
  const ValidMessage: string := "Verification completed. The proof is valid!"
  const InvalidMessage: string := "Verification completed. The proof is invalid."
  const FailedPrefix: string := "Verification process failed: "

  /** The page's file test: declared JSON, or a name ending in ".json". */
  predicate IsJson(f: UploadPage.PickedFile) {
    f.mimeType == "application/json" || EndsWith(f.name, ".json")
  }

  /** The two file-input handlers; `proof` picks which slot. */
  function SelectFile(s: State, proof: bool, selected: Option<UploadPage.PickedFile>): (s': State)
    ensures (if proof then s'.proofFile else s'.publicFile)
            == (if selected.Some? && IsJson(selected.value) then selected else None)
    ensures (if proof then s'.proofName else s'.publicName)
            == (if selected.Some? && IsJson(selected.value) then selected.value.name else "")
    ensures s'.error == "" <==> selected.Some? && IsJson(selected.value)
    ensures (if proof then s'.publicFile else s'.proofFile) == (if proof then s.publicFile else s.proofFile)
    ensures s'.result == s.result && s'.currentStep == s.currentStep
  {
    if selected.Some? && IsJson(selected.value) then
      var f := selected.value;
      if proof then
        s.(proofFile := Some(f), proofName := f.name, error := "",
           success := "Proof file " + UploadPage.Quote(f.name) + " selected.")
      else
        s.(publicFile := Some(f), publicName := f.name, error := "",
           success := "Public file " + UploadPage.Quote(f.name) + " selected.")
    else if proof then
      s.(proofFile := None, proofName := "", error := ProofNotJsonMessage, success := "")
    else
      s.(publicFile := None, publicName := "", error := PublicNotJsonMessage, success := "")
  }

  /**
    The page accepts a file the server refuses: a file called ".json"
    with no declared type ends in ".json", but has no extension as the
    server reads it.
   */
  lemma ClientAndServerJsonTestsDiffer()
    ensures IsJson(UploadPage.PickedFile(".json", ""))
    ensures !Verification.JsonAccepted(Stages.UploadedFile("uploads/proof", ".json", "", 10))
  {
    assert Stages.BaseName(".json") == ".json";
  }

  /** What the verifier route answered. */
  datatype Answer = Ok(body: Verification.Outcome) | Err(message: string, details: string)

  /** The state after a 200 answer. */
  function Answered(s: State, body: Verification.Outcome): (s': State)
    ensures s'.result == Some(body) && s'.currentStep == 3 && !s'.isVerifying
    ensures body.verified ==> s'.success == ValidMessage && s'.error == s.error
    ensures !body.verified ==> s'.error == InvalidMessage && s'.success == s.success
    ensures |s'.log| == |s.log| + 1 && s'.log[..|s.log|] == s.log
    ensures s'.proofFile == s.proofFile && s'.publicFile == s.publicFile
  {
    var verdict := if body.verified then "PROOF VERIFIED" else "PROOF INVALID";
    var s1 := s.(result := Some(body), currentStep := 3,
                 log := s.log + ["Verification completed. Result: " + verdict], isVerifying := false);
    if body.verified then s1.(success := ValidMessage) else s1.(error := InvalidMessage)
  }

  /** The state after a failed request. */
  function Failed(s: State, message: string, details: string): (s': State)
    ensures s'.result == s.result && s'.currentStep == s.currentStep && !s'.isVerifying
    ensures s'.error == FailedPrefix + message
    ensures |s'.log| > |s.log| && s'.log[..|s.log|] == s.log
    ensures s'.proofFile == s.proofFile && s'.publicFile == s.publicFile
  {
    s.(log := s.log + ["Error: " + message] + (if details != "" then ["Details: " + details] else []),
       error := FailedPrefix + message, isVerifying := false)
  }

  /**
    `verifyFiles`: resets the verdict, the messages, the log and the step;
    with a file missing it stops there without sending anything.
    `sent` tells whether the request went out.
   */
  function VerifyFiles(s: State, answer: Answer): (r: (State, bool))
    ensures !r.1 <==> s.proofFile.None? || s.publicFile.None?
    ensures !r.1 ==>
      r.0 == s.(error := BothFilesMessage, success := "", result := None, log := [], currentStep := 1, isVerifying := false)
    ensures r.1 && answer.Ok? ==> r.0.result == Some(answer.body) && r.0.currentStep == 3
    ensures r.1 && answer.Err? ==> r.0.result.None? && r.0.currentStep == 2 && r.0.error == FailedPrefix + answer.message
    ensures !r.0.isVerifying
    ensures r.0.proofFile == s.proofFile && r.0.publicFile == s.publicFile
  {
    var s0 := s.(error := "", success := "", result := None, log := [], currentStep := 1);
    if s0.proofFile.None? || s0.publicFile.None? then (s0.(error := BothFilesMessage, isVerifying := false), false)
    else
      var s1 := s0.(isVerifying := true, currentStep := 2, log := [UploadingMessage, VerifyingMessage]);
      match answer
      case Ok(body) => (Answered(s1, body), true)
      case Err(m, d) => (Failed(s1, m, d), true)
  }

  /** `resetVerification`: back to the page's initial state, except that a running request stays running. */
  function Reset(s: State): (s': State)
    ensures s' == Initial.(isVerifying := s.isVerifying)
  {
    s.(proofFile := None, proofName := "", publicFile := None, publicName := "", result := None,
       error := "", success := "", log := [], currentStep := 1)
  }

  /** Resetting twice is resetting once, and a reset page has nothing to verify. */
  lemma ResetIdempotent(s: State, answer: Answer)
    ensures Reset(Reset(s)) == Reset(s)
    ensures !VerifyFiles(Reset(s), answer).1
  {
  }

  /** The verdict's heading. */
  function Title(o: Verification.Outcome): (t: string)
    ensures t == "Proof Verified" <==> o.verified
    ensures t == "Proof Tampered" <==> !o.verified && o.tampered
    ensures t == "Proof Invalid" <==> !o.verified && !o.tampered
  {
    if o.verified then "Proof Verified" else if o.tampered then "Proof Tampered" else "Proof Invalid"
  }

  /**
    The security alert follows the tampered flag alone, not the heading:
    it never sits under "Proof Invalid", it accompanies "Proof Tampered"
    exactly, and a verdict with both flags set would show it under
    "Proof Verified".
   */
  function ShowsTamperAlert(o: Verification.Outcome): (shown: bool)
    ensures shown ==> Title(o) != "Proof Invalid"
    ensures !o.verified ==> (shown <==> Title(o) == "Proof Tampered")
    ensures o.verified ==> (shown <==> o.tampered) && Title(o) == "Proof Verified"
  {
    o.tampered
  }

  /**
    Against the server as written the "Proof Invalid" heading never shows:
    every verdict the route answers with 200 is either verified or
    tampered, and exactly one of the two headings follows from it.
   */
  lemma NoInvalidHeadingFromServer(proof: Option<Stages.UploadedFile>, publicInputs: Option<Stages.UploadedFile>,
                                   disk: set<string>, exportRun: Stages.ToolRun, verifyRun: Stages.Exec)
    requires Verification.VerifyZkp(proof, publicInputs, disk, exportRun, verifyRun).result.Success?
    ensures var o := Verification.VerifyZkp(proof, publicInputs, disk, exportRun, verifyRun).result.value;
      && Title(o) != "Proof Invalid"
      && (ShowsTamperAlert(o) <==> Title(o) == "Proof Tampered")
  {
  }

  /**
    The body of the route's catch-all, the only answer with neither flag
    set, arrives with status 500, so the page reports a failure and keeps
    no verdict to title.
   */
  lemma FaultShowsNoVerdict(s: State, errorMessage: string)
    requires s.proofFile.Some? && s.publicFile.Some?
    ensures var (e, body) := Verification.FaultReply(errorMessage);
      && Title(body) == "Proof Invalid"
      && VerifyFiles(s, Err(body.message, body.details)).0.result.None?
      && VerifyFiles(s, Err(body.message, body.details)).0.error == FailedPrefix + Verification.FaultMessage
  {
  }
}
